=== FILE: README.md ===
# mini-redis containers: intrusive AVL tree and progressive-rehash hash map

A Dafny model of the two intrusive containers of the mini-redis key-value
store, with proofs of what they promise.

**The AVL tree** (`code/src/avl.cpp`, `code/include/avl.hpp`). Each node
caches its subtree `height` and its subtree node count `cnt`. The model
covers:

- the field refresh `avl_update`;
- the rotations `rot_left` and `rot_right`;
- the two-sided repairs `avl_fix_left` and `avl_fix_right`;
- the upward walk `avl_fix`, which refreshes and rebalances every ancestor and returns the root;
- unlinking, `avl_del_easy` and `avl_del`.

The original works on nodes with parent back-links and rewrites whichever
pointer slot refers to a node. Here a tree is an immutable value
`Leaf | Node(left, id, right, height, cnt)`. A position inside a tree is a
zipper: the subtree at that position plus the path of frames from its parent
up to the root. Following `parent` means taking the first frame. Rewriting
the parent's child slot, or the root variable, means re-attaching into that
frame. The copy `*victim = *node` in the two-child delete is a relabelling:
the successor's identity takes over the deleted node's place, links and
fields.

Nothing in this code compares keys. The properties are therefore about three
things:

- the in-order sequence of node identities;
- the cached fields against their structural values (`Depth`, and the length of `InOrder`);
- the AVL balance condition.

**The hash map** (`src/hashtable.cpp`, `include/hashtable.h`). It has two
parts:

- A fixed-capacity chained table (`h_init`, `h_insert`, `h_lookup`, `h_detach`). Its capacity is a power of two, and the bucket index is `hcode & mask`.
- The public map (`hm_lookup`, `hm_insert`, `hm_delete`, `hm_clear`, `hm_size`). It keeps a `newer` and an `older` table. While a resize is in flight, up to 128 nodes move from `older` into `newer` per call, resuming at bucket `migrate_pos`. Lookup and delete migrate before they search. Insert migrates last, after it has pushed the node and possibly started a resize. Clear and size never migrate.

A table is a sequence of chains. A node is its identity plus its cached hash
code, and its `next` link is its position in the chain. `hcode & mask` is a
bitwise AND on naturals, defined bit by bit. The map's invariant `Valid`
covers three things:

- every node sits in the bucket its hash code selects;
- each `size` field equals the number of nodes in its table;
- while `older` exists, `newer` exists too, and every bucket of `older` below `migrate_pos` has been drained.

The stored nodes, with multiplicity, are the multiset `Contents`.

Files:

- `bits.dfy` (module `Bits`): bitwise AND on naturals, the power-of-two test, and masking as reduction modulo the capacity.
- `buckets.dfy` (module `Buckets`): the multiset of a sequence of chains.
- `hashtable.dfy` (module `HashTable`): the table and the map.
- `hashmap_props.dfy` (module `HashMapProps`): properties that span several map calls.
- `avl.dfy` (module `Avl`): the tree, the zipper, and the operations.
- `avl_balance.dfy` (module `AvlBalance`): the balance theorems and the deletion theorems.

## Model

| member | source | states |
|---|---|---|
| Avl.Max | code/src/avl.cpp:5-7 | the result bounds both arguments and is one of them |
| Avl.Height | code/include/avl.hpp:22 | in a tree with correct cached fields, the height read is the subtree's structural height (0 for an absent node) |
| Avl.Cnt | code/include/avl.hpp:23 | in a tree with correct cached fields, the count read is the number of nodes in the subtree, the node itself included (0 for an absent node) |
| Avl.Init | code/include/avl.hpp:15-19 | a freshly initialised node is a one-node AVL tree of height 1 |
| AvlBalance.InitIsUpdated | code/include/avl.hpp:15-19 | a fresh node already holds the fields the refresh computes from two absent children: height 1 + max(0, 0) and count 1 + 0 + 0 |
| Avl.Update | code/src/avl.cpp:10-16 | the refresh keeps the links and identity, and over children with correct fields it leaves the node with the true subtree height and size |
| Avl.RotLeft | code/src/avl.cpp:19-37 | the right child becomes the subtree root and the old root its left child, taking over the pivot's inner subtree; the in-order sequence is unchanged; correct fields stay correct and the subtree count is preserved |
| Avl.RotRight | code/src/avl.cpp:40-58 | mirror of the left rotation: same in-order sequence, re-shaped nodes with correct fields, same subtree count |
| Avl.FixLeft | code/src/avl.cpp:61-70 | the left-heavy repair keeps the in-order sequence and leaves correct fields over correct subtrees |
| AvlBalance.FixLeftBalances | code/src/avl.cpp:61-70 | a node whose left subtree is exactly two taller than its right, both AVL, becomes an AVL tree of height h+2 or h+3, with h the right subtree's height |
| AvlBalance.LeftRightCase | code/src/avl.cpp:63-69 | when the left child's inner subtree is the taller, rotating the left child left and then the node right gives an AVL tree of height h+2 |
| AvlBalance.LeftLeftCase | code/src/avl.cpp:69 | when the left child's outer subtree is at least as tall, a single right rotation gives an AVL tree |
| Avl.FixRight | code/src/avl.cpp:73-82 | mirror of the left repair: same in-order sequence, correct fields |
| AvlBalance.FixRightBalances | code/src/avl.cpp:73-82 | mirror of the left case: a right-heavy-by-two node over AVL subtrees becomes an AVL tree of height h+2 or h+3 |
| AvlBalance.RightLeftCase | code/src/avl.cpp:75-81 | mirror of the left-right case: the double rotation yields an AVL tree of height h+2 |
| AvlBalance.RightRightCase | code/src/avl.cpp:81 | mirror of the left-left case: a single left rotation yields an AVL tree |
| Avl.FixNode | code/src/avl.cpp:100-110 | one iteration of the walk keeps the in-order sequence and leaves correct fields over correct subtrees |
| AvlBalance.FixNodeBalances | code/src/avl.cpp:100-110 | over AVL subtrees whose heights differ by at most two, one iteration yields an AVL tree whose height is the taller child's plus 0 or 1, and exactly plus 1 when no rotation is needed |
| Avl.AttachStep | code/src/avl.cpp:143-144 | writing a subtree into its parent's slot keeps it between everything before and after that position in the in-order sequence |
| Avl.Plug | code/src/avl.cpp:94-98 | rebuilding from a position to the root places the subtree's in-order sequence between everything before and after that position |
| Avl.Ascend | code/src/avl.cpp:85-120 | the walk from a repaired subtree to the root keeps the whole tree's in-order sequence, and yields correct fields when the subtree and all siblings on the path have them |
| Avl.Fix | code/src/avl.cpp:85-120 | the root returned by the walk has the same in-order sequence as the tree before it; with correct fields below, its fields are correct and its count is the number of nodes |
| AvlBalance.StepBalances | code/src/avl.cpp:95-118 | re-attaching a subtree whose height moved by at most one and repairing the parent gives an AVL parent within one of the parent's old height |
| AvlBalance.AscendBalances | code/src/avl.cpp:85-120 | if the subtree under repair is AVL and its height moved by at most one, the walk returns an AVL tree |
| AvlBalance.InsertFixBalanced | code/src/avl.cpp:85-120 | a fresh node linked into an empty slot of an AVL tree, then fixed from, gives an AVL tree with the node in that slot of the in-order sequence and one more node in the root count |
| Avl.OnlyChild | code/src/avl.cpp:125-126 | the child that takes the unlinked node's slot carries exactly the node's two subtrees in order |
| Avl.DelEasy | code/src/avl.cpp:123-148 | unlinking a node with at most one child leaves the in-order sequence with only that node missing, whether it was the root or not |
| AvlBalance.DelEasyIsAscend | code/src/avl.cpp:140-147 | below a parent, the easy unlink is the upward walk from the child put in the node's slot |
| AvlBalance.DelEasyBalanced | code/src/avl.cpp:123-148 | unlinking a node with at most one child from an AVL tree leaves an AVL tree |
| Avl.LeftmostZip | code/src/avl.cpp:157-161 | the descent ends at a node without a left child, at a position of the same tree, and that node comes first in the subtree's in-order sequence |
| AvlBalance.SuccessorIsNext | code/src/avl.cpp:157-164 | with two children, the node found is the deleted node's in-order successor: it directly follows it in the sequence |
| AvlBalance.SuccessorUnlinked | code/src/avl.cpp:164 | unlinking the successor leaves the deleted node directly followed by everything after the successor |
| Avl.Relabel | code/src/avl.cpp:166-188 | the successor taking over the node's place renames one identity in the in-order sequence and keeps the tree's shape: with identities erased, every link and every stored height and count is as before; correct cached fields and balance are preserved |
| Avl.Del | code/src/avl.cpp:151-192 | the tree returned holds exactly one node fewer than the tree the node was unlinked from |
| AvlBalance.DelInOrder | code/src/avl.cpp:151-192 | with distinct identities, deleting any node yields exactly the old in-order sequence with that node removed |
| AvlBalance.DelBalanced | code/src/avl.cpp:151-192 | deleting any node from an AVL tree yields an AVL tree |
| AvlBalance.DelRemovesOne | code/src/avl.cpp:151-192 | the old in-order sequence is A, the deleted node, B, and the new one is exactly A followed by B; the result is an AVL tree and its root count is one less |
| Bits.BitAnd | src/hashtable.cpp:16 | the bitwise AND of two naturals is at most either operand, so a masked hash code never exceeds the mask |
| Bits.PowerOfTwoTestCorrect | src/hashtable.cpp:8 | `n > 0 && ((n - 1) & n) == 0` holds exactly for the powers of two |
| Bits.MaskIsModulo | src/hashtable.cpp:16 | for a power-of-two capacity n, `hcode & (n - 1)` is `hcode mod n` |
| Bits.DoublePowerOfTwo | src/hashtable.cpp:81 | twice a power-of-two capacity passes the initialiser's test again |
| HashTable.BucketOf | src/hashtable.cpp:16 | a bucket index never exceeds the mask |
| HashMapProps.BucketIsModulo | src/hashtable.cpp:16 | in a valid table the bucket index is the hash code modulo the number of buckets |
| HashTable.HInit | src/hashtable.cpp:6-12 | on a capacity that passes the power-of-two test, a valid table with n empty buckets, mask n - 1, size 0 and no nodes |
| HashTable.HInsert | src/hashtable.cpp:15-21 | the node becomes the head of bucket `hcode & mask`; that chain's tail and every other bucket are unchanged; the size and the stored multiset each grow by exactly that node |
| HashTable.FindInChain | src/hashtable.cpp:34-39 | the index returned is the first match at or after the start; none means no node from there on matches |
| HashTable.Matches | src/hashtable.cpp:35 | the hash-code comparison is only a shortcut: for an `eq` that accepts only nodes with equal hash codes, a node matches exactly when `eq` accepts it |
| HashTable.HLookup | src/hashtable.cpp:26-41 | none on an unallocated table; otherwise the first node of the key's bucket with an equal hash code that `eq` accepts; none exactly when no stored node matches |
| HashTable.FoundIsFirstMatch | src/hashtable.cpp:34-39 | a matching slot of the key's bucket with no match before it in the chain holds the chain's first match |
| HashTable.FirstMatchUnique | src/hashtable.cpp:34-39 | a chain has at most one first match, so naming it determines the node a walk returns |
| HashTable.HDetach | src/hashtable.cpp:44-51 | removes exactly the referenced node, keeps the rest of its chain in order and every other bucket, and decrements the size |
| HashTable.HmSize | src/hashtable.cpp:134-136 | the sum of the two tables' sizes is the number of nodes in the map |
| HashTable.MigratePosInRange | src/hashtable.cpp:58-64 | while `older` holds nodes, `migrate_pos` indexes one of its buckets |
| HashTable.SkipBucket | src/hashtable.cpp:62-65 | passing a drained bucket keeps both tables and the invariant and advances the position by one |
| HashTable.MoveHead | src/hashtable.cpp:66-68 | moving one head node keeps the stored multiset and the invariant, and shifts one unit of size from `older` to `newer` |
| HashTable.MigrateStep | src/hashtable.cpp:58-68 | one pass of the loop body either skips a drained bucket, leaving both tables as they were, or moves one node from `older` to `newer`; the stored multiset and the invariant are kept either way |
| HashTable.MigrateLoop | src/hashtable.cpp:57-69 | the loop keeps the stored multiset and the invariant, and never changes `newer`'s capacity |
| HashTable.MigrateLoopMoves | src/hashtable.cpp:57-69 | the loop moves exactly min(remaining work, older size) nodes from `older` to `newer` |
| HashTable.HelpRehashing | src/hashtable.cpp:56-75 | one help step moves min(128, older size) nodes, keeps the stored multiset and `hm_size`, and resets a drained `older` to the unallocated table |
| HashMapProps.BatchProgress | src/hashtable.cpp:56-75 | during a migration, one help call either releases `older` or moves a full batch of 128 nodes out of it |
| HashMapProps.LookupStep | src/hashtable.cpp:85-86 | the map a lookup leaves behind is valid, holds the same nodes, and has min(128, older size) fewer nodes in `older`, released once drained |
| HashMapProps.DrainMigration | src/hashtable.cpp:85-92 | repeated lookups free `older` after at most older size / 128 + 1 calls, with the stored multiset unchanged |
| HashTable.TriggerRehashing | src/hashtable.cpp:77-83 | with no `older`, the old `newer` becomes `older`, a table of twice its capacity becomes `newer`, the position restarts at 0, and no node is lost |
| HashTable.HmLookup | src/hashtable.cpp:85-92 | the stored multiset and size are unchanged; a node is returned only if it is stored and matches; none exactly when no stored node matches |
| HashTable.SearchBoth | src/hashtable.cpp:87-91 | the answer is the first match of `newer`'s chain when `newer` holds a match, and otherwise the first match of `older`'s chain, or none; the map is not changed |
| HashTable.LookupMigratesThenSearches | src/hashtable.cpp:85-92 | a lookup moves exactly min(128, older size) nodes from `older` to `newer`, releases a drained `older`, and then answers with the first match of `newer`'s chain, or failing that of `older`'s |
| HashMapProps.LookupFindsStored | src/hashtable.cpp:85-92 | a lookup finds a node whenever some stored node matches the key |
| HashTable.AllocNewer | src/hashtable.cpp:98-100 | allocates `newer` with 4 buckets on first use, keeping `older`, the position and the contents; an already-allocated map is returned unchanged |
| HashTable.InsertNewer | src/hashtable.cpp:103 | the insertion always goes into `newer`; `older` is untouched |
| HashTable.GrowIfLoaded | src/hashtable.cpp:105-111 | with no resize in flight and `newer` at 8 times its capacity, `newer` is retired to `older` and replaced by a table of twice the capacity; otherwise the map is unchanged |
| HashTable.HmInsert | src/hashtable.cpp:96-115 | the stored multiset gains exactly the node and `hm_size` grows by 1; `newer` doubles exactly when no migration is running and the new size reaches 8 times the capacity |
| HashTable.InsertThenMigrates | src/hashtable.cpp:105-114 | after pushing the node, an insertion moves min(128, n) nodes out of `older`, where n is the size of the old table in flight, or of the just-retired `newer` if this insertion started the resize; with neither, `older` stays unallocated |
| HashMapProps.InsertThenLookup | src/hashtable.cpp:96-115 | after an insertion, a lookup with the inserted node as key finds a node |
| HashTable.DetachNewer | src/hashtable.cpp:119-121 | detaching from `newer` removes exactly that node from the map, decrements `hm_size` and `newer`'s size, and leaves `older` and the position alone |
| HashTable.DetachOlder | src/hashtable.cpp:122-124 | detaching from `older` removes exactly that node from the map, decrements `hm_size` and `older`'s size, and leaves `newer` and the position alone |
| HashTable.DetachFirst | src/hashtable.cpp:119-125 | it detaches a stored node that matches the key, removing exactly that node; if none matches, the map is left untouched |
| HashTable.DetachFirstOrder | src/hashtable.cpp:119-125 | the node detached is the first match of `newer`'s chain when `newer` holds a match, leaving `older` alone; otherwise it is the first match of `older`'s chain, leaving `newer` alone |
| HashTable.HmDelete | src/hashtable.cpp:117-126 | either a stored matching node is removed, with `hm_size` down by 1, or none is returned, no node matched, and the contents and size are unchanged |
| HashTable.DeleteMigratesThenSearches | src/hashtable.cpp:117-126 | a deletion first moves min(128, older size) nodes out of `older` (the detach may take one more), and then removes the first match of the migrated `newer`'s chain, or failing that of `older`'s |
| HashMapProps.DeleteOnlyMatch | src/hashtable.cpp:117-126 | when a node is the only one matching its own key, deleting that key detaches that node |
| HashMapProps.DeleteThenLookupMisses | src/hashtable.cpp:117-126 | when at most one stored node matches a key, and only once, a lookup after deleting that key finds nothing |
| HashMapProps.InsertThenDelete | src/hashtable.cpp:96-126 | inserting a node with a fresh key and then deleting that key returns that node and restores the contents and the size |
| HashTable.HmClear | src/hashtable.cpp:128-132 | the map returns to its default state: both tables unallocated, position 0, empty, size 0 |

## Left out

- Memory management: `calloc` becomes a sequence of empty chains and `free` a reset to the unallocated table. Allocation failure is not modelled.
- Integer widths: `height` and `cnt` (`uint32_t`), table sizes and masks (`size_t`) and hash codes (`uint64_t`) are unbounded naturals. Their overflow is not modelled.
- Parent links: a tree is a value, and positions are zipper paths. "The root returned by `avl_fix` has no parent" and "the rotated subtree inherits the old root's parent" hold by construction, and are not stated as contracts.
- Key order: placing a node by the caller's comparator before `avl_fix` is outside the core. `AvlBalance.InsertFixBalanced` takes the empty slot the node was linked into as given.
- The hash function and `eq` are the caller's. `eq` is a total function parameter, and hash codes are given values.
- The default `HNode` (`next == nullptr`, `hcode == 0`) has no counterpart: a node's `next` link is its position in its chain.
- `hm_size` taking its map read-only holds by construction, because every operation returns a new map.
- Avl.Del: its own contract states only that one node goes. Which node goes and that balance is kept are stated by `AvlBalance.DelInOrder`, `AvlBalance.DelBalanced` and `AvlBalance.DelRemovesOne`.
- AvlBalance.DelInOrder: requires distinct node identities. The source relies on node addresses being distinct, and the model renames identities.
- AvlBalance.DelRemovesOne: same requirement as `AvlBalance.DelInOrder`.
- HashMapProps.InsertThenLookup: requires `eq` to accept the inserted node against itself. The source promises nothing for an `eq` that is not reflexive.
- HashTable.HmInsert: a node may only be inserted while it is not stored. `h_insert` overwrites the node's own `next` link, so re-inserting a stored node corrupts a chain in the source. The model has no such link and would simply store a second copy in the multiset; callers that re-insert are outside what the model describes.
- HashMapProps.DeleteThenLookupMisses: requires that at most one stored node matches the key, stored once. With duplicate keys, `hm_delete` removes only the first match, as `HashTable.DeleteMigratesThenSearches` states, and a later lookup can find another.

=== FILE: avl.dfy ===
/**
  The AVL tree core: augmentation maintenance, rotations, rebalancing from
  a node up to the root, and unlinking a node.

  The original works on intrusive nodes with parent back-links and rewrites
  whichever pointer slot refers to a node. Here a tree is an immutable value
  and a position inside it is a zipper: the subtree at that position plus
  the `Path` of frames from its parent up to the root. Following `parent`
  is taking the first frame; rewriting the parent's child slot (or the root
  variable) is re-attaching into that frame. No operation compares keys:
  every property is about the in-order sequence of node identities and the
  two cached fields.
 */
module Avl {

  type NodeId = nat

  /** `height` and `cnt` are the cached subtree height and subtree size. */
  datatype Tree = Leaf | Node(left: Tree, id: NodeId, right: Tree, height: nat, cnt: nat)

  /** Which child slot of the parent the focused subtree occupies. */
  datatype Dir = Left | Right

  /** A parent seen from one of its children: the parent's identity, its
      other child, and its (possibly stale) cached fields. */
  datatype Frame = Frame(dir: Dir, id: NodeId, sibling: Tree, height: nat, cnt: nat)

  /** Frames from the focused subtree's parent up to the root. */
  type Path = seq<Frame>

  function Max(a: nat, b: nat): (m: nat)
    ensures a <= m && b <= m && (m == a || m == b)
  {
    if a < b then b else a
  }

  /** The stored height, 0 for an absent node; in a tree whose cached
      fields are correct it is the subtree's structural height. */
  function Height(t: Tree): (h: nat)
    ensures Consistent(t) ==> h == Depth(t)
  {
    match t
    case Leaf => 0
    case Node(_, _, _, h, _) => h
  }

  /** The stored subtree size, 0 for an absent node; in a tree whose cached
      fields are correct it is the number of nodes in the subtree, the node
      itself included. */
  function Cnt(t: Tree): (c: nat)
    ensures Consistent(t) ==> c == |InOrder(t)|
  {
    match t
    case Leaf => 0
    case Node(_, _, _, _, c) => c
  }

  // ---------------------------------------------------------------------
  // Reference definitions

  /** Node identities in symmetric order. */
  ghost function InOrder(t: Tree): seq<NodeId>
  {
    match t
    case Leaf => []
    case Node(l, id, r, _, _) => InOrder(l) + [id] + InOrder(r)
  }

  /** The structural height. */
  ghost function Depth(t: Tree): nat
  {
    match t
    case Leaf => 0
    case Node(l, _, r, _, _) => 1 + Max(Depth(l), Depth(r))
  }

  /** The tree with every identity erased: only its links and cached
      fields remain. */
  ghost function Erase(t: Tree): Tree
  {
    match t
    case Leaf => Leaf
    case Node(l, _, r, h, c) => Node(Erase(l), 0, Erase(r), h, c)
  }

  /** Every cached field equals its structural value. */
  ghost predicate Consistent(t: Tree)
  {
    match t
    case Leaf => true
    case Node(l, _, r, h, c) =>
      && Consistent(l) && Consistent(r)
      && h == Depth(t)
      && c == |InOrder(t)|
  }

  /** The AVL balance condition at every node. */
  ghost predicate Balanced(t: Tree)
  {
    match t
    case Leaf => true
    case Node(l, _, r, _, _) =>
      && Balanced(l) && Balanced(r)
      && Depth(l) <= Depth(r) + 1 && Depth(r) <= Depth(l) + 1
  }

  ghost predicate IsAvl(t: Tree)
  {
    Consistent(t) && Balanced(t)
  }

  lemma ConsistentChildren(t: Tree)
    requires t.Node?
    ensures Consistent(t) ==> Consistent(t.left) && Consistent(t.right)
  {
  }

  // ---------------------------------------------------------------------
  // Node initialisation and field maintenance

  /** A fresh detached node: no children, height 1, count 1. */
  function Init(id: NodeId): (t: Tree)
    ensures IsAvl(t) && InOrder(t) == [id] && Depth(t) == 1
  {
    Node(Leaf, id, Leaf, 1, 1)
  }

  /** Recomputes the node's two fields from its children's stored fields. */
  function Update(t: Tree): (r: Tree)
    requires t.Node?
    ensures r.Node? && r.left == t.left && r.id == t.id && r.right == t.right
    ensures Consistent(t.left) && Consistent(t.right) ==> Consistent(r)
  {
    t.(height := 1 + Max(Height(t.left), Height(t.right)),
       cnt := 1 + Cnt(t.left) + Cnt(t.right))
  }

  // ---------------------------------------------------------------------
  // Rotations

  /** The right child becomes the subtree root; its inner (left) subtree
      moves under the old root. Only the two re-shaped nodes are updated. */
  function RotLeft(t: Tree): (r: Tree)
    requires t.Node? && t.right.Node?
    ensures InOrder(r) == InOrder(t)
    ensures r.Node? && r.id == t.right.id && r.right == t.right.right
    ensures r.left.Node? && r.left.id == t.id
    ensures r.left.left == t.left && r.left.right == t.right.left
    ensures Consistent(t.left) && Consistent(t.right.left) && Consistent(t.right.right) ==>
              Consistent(r)
    ensures Consistent(t) ==> Consistent(r) && Cnt(r) == Cnt(t)
  {
    var pivot := t.right;
    var r := Update(pivot.(left := Update(t.(right := pivot.left))));
    ConsistentChildren(t);
    ConsistentChildren(pivot);
    r
  }

  /** The mirror image of `RotLeft`. */
  function RotRight(t: Tree): (r: Tree)
    requires t.Node? && t.left.Node?
    ensures InOrder(r) == InOrder(t)
    ensures r.Node? && r.id == t.left.id && r.left == t.left.left
    ensures r.right.Node? && r.right.id == t.id
    ensures r.right.left == t.left.right && r.right.right == t.right
    ensures Consistent(t.left.left) && Consistent(t.left.right) && Consistent(t.right) ==>
              Consistent(r)
    ensures Consistent(t) ==> Consistent(r) && Cnt(r) == Cnt(t)
  {
    var pivot := t.left;
    var r := Update(pivot.(right := Update(t.(left := pivot.right))));
    ConsistentChildren(t);
    ConsistentChildren(pivot);
    r
  }

  /** Repairs a node whose left side is two taller: a left-right shape is
      first turned into a left-left one, then the node is rotated right. */
  function FixLeft(t: Tree): (r: Tree)
    requires t.Node? && t.left.Node?
    ensures InOrder(r) == InOrder(t)
    ensures Consistent(t.left) && Consistent(t.right) ==> Consistent(r)
  {
    var t1 := if Height(t.left.left) < Height(t.left.right) then t.(left := RotLeft(t.left)) else t;
    RotRight(t1)
  }

  /** The mirror image of `FixLeft`. */
  function FixRight(t: Tree): (r: Tree)
    requires t.Node? && t.right.Node?
    ensures InOrder(r) == InOrder(t)
    ensures Consistent(t.left) && Consistent(t.right) ==> Consistent(r)
  {
    var t1 := if Height(t.right.right) < Height(t.right.left) then t.(right := RotRight(t.right)) else t;
    RotLeft(t1)
  }

  /** One iteration of the upward walk: refresh the node's fields, then
      repair an imbalance of exactly two on either side. */
  function FixNode(t: Tree): (r: Tree)
    requires t.Node?
    ensures InOrder(r) == InOrder(t)
    ensures Consistent(t.left) && Consistent(t.right) ==> Consistent(r)
  {
    var u := Update(t);
    var l := Height(u.left);
    var rh := Height(u.right);
    if l == rh + 2 then FixLeft(u)
    else if l + 2 == rh then FixRight(u)
    else u
  }

  // ---------------------------------------------------------------------
  // Positions: frames and paths

  /** The parent node rebuilt around a new child in the frame's slot. */
  function Attach(f: Frame, child: Tree): Tree
  {
    match f.dir
    case Left => Node(child, f.id, f.sibling, f.height, f.cnt)
    case Right => Node(f.sibling, f.id, child, f.height, f.cnt)
  }

  /** Identities that precede the focused subtree in symmetric order. */
  ghost function Before(path: Path): seq<NodeId>
    decreases |path|
  {
    if path == [] then []
    else
      var f := path[0];
      Before(path[1..]) + (if f.dir == Right then InOrder(f.sibling) + [f.id] else [])
  }

  /** Identities that follow the focused subtree in symmetric order. */
  ghost function After(path: Path): seq<NodeId>
    decreases |path|
  {
    if path == [] then []
    else
      var f := path[0];
      (if f.dir == Left then [f.id] + InOrder(f.sibling) else []) + After(path[1..])
  }

  ghost predicate SiblingsConsistent(path: Path)
  {
    forall i :: 0 <= i < |path| ==> Consistent(path[i].sibling)
  }

  /** Re-attaching one level moves the parent and its other subtree from
      the path into the focused subtree. */
  lemma AttachStep(path: Path, t: Tree)
    requires path != []
    ensures Before(path[1..]) + InOrder(Attach(path[0], t)) + After(path[1..])
            == Before(path) + InOrder(t) + After(path)
  {
    var f, b, a := path[0], Before(path[1..]), After(path[1..]);
    var x, s, u := [f.id], InOrder(f.sibling), InOrder(t);
    if f.dir == Left {
      RegroupLeft(b, u, x, s, a);
    } else {
      RegroupRight(b, u, x, s, a);
    }
  }

  lemma RegroupLeft(b: seq<NodeId>, u: seq<NodeId>, x: seq<NodeId>, s: seq<NodeId>, a: seq<NodeId>)
    ensures b + ((u + x) + s) + a == (b + []) + u + ((x + s) + a)
  {
    assert b + [] == b;
    Assoc3(u, x, s);
    Assoc3(b, u, x + s);
    Assoc3(b + u, x + s, a);
  }

  lemma RegroupRight(b: seq<NodeId>, u: seq<NodeId>, x: seq<NodeId>, s: seq<NodeId>, a: seq<NodeId>)
    ensures b + ((s + x) + u) + a == (b + (s + x)) + u + ([] + a)
  {
    assert [] + a == a;
    Assoc3(b, s + x, u);
  }

  lemma SiblingsTail(path: Path)
    requires path != []
    ensures SiblingsConsistent(path) ==>
              Consistent(path[0].sibling) && SiblingsConsistent(path[1..])
  {
    if SiblingsConsistent(path) {
      forall i | 0 <= i < |path[1..]| ensures Consistent(path[1..][i].sibling) {
        assert path[1..][i] == path[i + 1];
      }
    }
  }

  /** The whole tree, rebuilt from a focused subtree and its path. */
  function Plug(path: Path, t: Tree): (r: Tree)
    ensures InOrder(r) == Before(path) + InOrder(t) + After(path)
    decreases |path|
  {
    if path == [] then t
    else
      AttachStep(path, t);
      Plug(path[1..], Attach(path[0], t))
  }

  // ---------------------------------------------------------------------
  // avl_fix

  /** The upward walk above an already repaired subtree: re-attach it in
      its parent's slot, repair the parent, and continue to the root. */
  function Ascend(sub: Tree, path: Path): (r: Tree)
    ensures InOrder(r) == Before(path) + InOrder(sub) + After(path)
    ensures Consistent(sub) && SiblingsConsistent(path) ==> Consistent(r)
    decreases |path|
  {
    if path == [] then sub
    else
      var up := FixNode(Attach(path[0], sub));
      AttachStep(path, sub);
      SiblingsTail(path);
      Ascend(up, path[1..])
  }

  /** Rebalances from node `t` (focused at `path`) up to the root and
      returns the root. */
  function Fix(t: Tree, path: Path): (r: Tree)
    requires t.Node?
    ensures InOrder(r) == InOrder(Plug(path, t))
    ensures Consistent(t.left) && Consistent(t.right) && SiblingsConsistent(path) ==>
              Consistent(r) && Cnt(r) == |InOrder(Plug(path, t))|
  {
    Ascend(FixNode(t), path)
  }

  // ---------------------------------------------------------------------
  // avl_del

  /** The child that takes an unlinked node's slot: its only child, or
      nothing. */
  function OnlyChild(t: Tree): (c: Tree)
    requires t.Node? && (t.left.Leaf? || t.right.Leaf?)
    ensures InOrder(c) == InOrder(t.left) + InOrder(t.right)
  {
    if t.left.Node? then t.left else t.right
  }

  lemma Assoc3(a: seq<NodeId>, b: seq<NodeId>, c: seq<NodeId>)
    ensures a + b + c == a + (b + c)
  {
  }

  /** Unlinks a node with at most one child: the child (or nothing) takes
      its slot, and the tree is repaired from the former parent. */
  function DelEasy(path: Path, t: Tree): (r: Tree)
    requires t.Node? && (t.left.Leaf? || t.right.Leaf?)
    ensures InOrder(r) == Before(path) + InOrder(t.left) + InOrder(t.right) + After(path)
  {
    var child := OnlyChild(t);
    Assoc3(Before(path), InOrder(t.left), InOrder(t.right));
    if path == [] then
      child
    else
      AttachStep(path, child);
      Fix(Attach(path[0], child), path[1..])
  }

  /** Stepping from a node into its left subtree. */
  lemma LeftStep(s: Tree, path: Path)
    requires s.Node?
    ensures var f := Frame(Left, s.id, s.right, s.height, s.cnt);
      && ([f] + path)[0] == f && ([f] + path)[1..] == path
      && Plug([f] + path, s.left) == Plug(path, s)
      && Before([f] + path) == Before(path)
      && InOrder(s.left) + After([f] + path) == InOrder(s) + After(path)
  {
    var f := Frame(Left, s.id, s.right, s.height, s.cnt);
    assert ([f] + path)[0] == f && ([f] + path)[1..] == path;
    assert Attach(f, s.left) == s;
    LeftStepOrder(s, path, f);
  }

  lemma LeftStepOrder(s: Tree, path: Path, f: Frame)
    requires s.Node? && f == Frame(Left, s.id, s.right, s.height, s.cnt)
    requires ([f] + path)[0] == f && ([f] + path)[1..] == path
    ensures InOrder(s.left) + After([f] + path) == InOrder(s) + After(path)
  {
    var l, x, r, a := InOrder(s.left), [s.id], InOrder(s.right), After(path);
    assert After([f] + path) == x + r + a;
    Assoc3(x, r, a);
    Assoc3(l, x, r + a);
    Assoc3(l + x, r, a);
  }

  /** Descends to the leftmost node of `s`, extending the path. */
  function LeftmostZip(s: Tree, path: Path): (r: (Path, Tree))
    requires s.Node?
    ensures r.1.Node? && r.1.left.Leaf?
    ensures Plug(r.0, r.1) == Plug(path, s)
    ensures Before(r.0) == Before(path)
    ensures [r.1.id] + InOrder(r.1.right) + After(r.0) == InOrder(s) + After(path)
    decreases s
  {
    if s.left.Leaf? then
      assert InOrder(s) == [s.id] + InOrder(s.right);
      (path, s)
    else
      LeftStep(s, path);
      LeftmostZip(s.left, [Frame(Left, s.id, s.right, s.height, s.cnt)] + path)
  }

  /** Replaces identity `a` by `b` in a sequence. */
  ghost function Rename(s: seq<NodeId>, a: NodeId, b: NodeId): (r: seq<NodeId>)
    ensures |r| == |s|
    decreases |s|
  {
    if s == [] then [] else [if s[0] == a then b else s[0]] + Rename(s[1..], a, b)
  }

  lemma {:induction false} RenameConcat(x: seq<NodeId>, y: seq<NodeId>, a: NodeId, b: NodeId)
    ensures Rename(x + y, a, b) == Rename(x, a, b) + Rename(y, a, b)
    decreases |x|
  {
    if x == [] {
      assert x + y == y;
    } else {
      assert (x + y)[0] == x[0];
      assert (x + y)[1..] == x[1..] + y;
      RenameConcat(x[1..], y, a, b);
    }
  }

  lemma RenameNode(x: seq<NodeId>, id: NodeId, y: seq<NodeId>, a: NodeId, b: NodeId)
    ensures Rename(x + [id] + y, a, b) == Rename(x, a, b) + [if id == a then b else id] + Rename(y, a, b)
  {
    RenameConcat(x + [id], y, a, b);
    RenameConcat(x, [id], a, b);
    assert Rename([id], a, b) == [if id == a then b else id];
  }

  /** Gives node `a` the identity `b`, keeping every link and field: the
      node record `b` takes over `a`'s place in the tree. */
  function Relabel(t: Tree, a: NodeId, b: NodeId): (r: Tree)
    ensures InOrder(r) == Rename(InOrder(t), a, b)
    ensures Erase(r) == Erase(t)
    ensures Depth(r) == Depth(t) && Height(r) == Height(t) && Cnt(r) == Cnt(t)
    ensures Consistent(t) ==> Consistent(r)
    ensures Balanced(t) ==> Balanced(r)
  {
    match t
    case Leaf => Leaf
    case Node(l, id, rt, h, c) =>
      var l' := Relabel(l, a, b);
      var rt' := Relabel(rt, a, b);
      RenameNode(InOrder(l), id, InOrder(rt), a, b);
      Node(l', if id == a then b else id, rt', h, c)
  }

  /** The frame of `t` seen from its right child. */
  function RightFrame(t: Tree): Frame
    requires t.Node?
  {
    Frame(Right, t.id, t.left, t.height, t.cnt)
  }

  /** Unlinks node `t` (focused at `path`) and returns the new root. With two
      children, the in-order successor is unlinked first and then takes
      over `t`'s place, links and fields. */
  function Del(path: Path, t: Tree): (r: Tree)
    requires t.Node?
    ensures |InOrder(r)| + 1 == |InOrder(Plug(path, t))|
  {
    if t.left.Leaf? || t.right.Leaf? then DelEasy(path, t)
    else
      var z := LeftmostZip(t.right, [RightFrame(t)] + path);
      Relabel(DelEasy(z.0, z.1), t.id, z.1.id)
  }
}

=== FILE: avl_balance.dfy ===
/**
  Balance and deletion theorems for the AVL core: the fix-ups restore the
  AVL condition, the upward walk leaves a valid AVL tree when it starts from
  an insertion or a deletion point, and unlinking removes exactly one
  identity from the in-order sequence.
 */
module AvlBalance {
  import opened Avl

  /** A fresh node already carries the fields the update would compute. */
  lemma InitIsUpdated(id: NodeId)
    ensures Update(Init(id)) == Init(id)
    ensures Height(Init(id)) == 1 + Max(Height(Leaf), Height(Leaf))
    ensures Cnt(Init(id)) == 1 + Cnt(Leaf) + Cnt(Leaf)
  {
  }

  lemma AvlChildren(t: Tree)
    requires t.Node? && IsAvl(t)
    ensures IsAvl(t.left) && IsAvl(t.right)
    ensures Depth(t.left) <= Depth(t.right) + 1 && Depth(t.right) <= Depth(t.left) + 1
    ensures Depth(t) == 1 + Max(Depth(t.left), Depth(t.right))
  {
    ConsistentChildren(t);
  }

  /** With AVL children whose depths differ by at most one, a consistent
      node is an AVL tree. */
  lemma AvlNode(t: Tree)
    requires t.Node? && Consistent(t) && IsAvl(t.left) && IsAvl(t.right)
    requires Depth(t.left) <= Depth(t.right) + 1 && Depth(t.right) <= Depth(t.left) + 1
    ensures IsAvl(t) && Depth(t) == 1 + Max(Depth(t.left), Depth(t.right))
  {
  }

  // ---------------------------------------------------------------------
  // The fix-ups

  /** A node whose left side is exactly two taller, with AVL subtrees,
      becomes an AVL tree of height `h + 2` or `h + 3`. */
  lemma FixLeftBalances(t: Tree)
    requires t.Node? && IsAvl(t.left) && IsAvl(t.right)
    requires Depth(t.left) == Depth(t.right) + 2
    ensures IsAvl(FixLeft(t))
    ensures Depth(t.right) + 2 <= Depth(FixLeft(t)) <= Depth(t.right) + 3
  {
    assert t.left.Node?;
    AvlChildren(t.left);
    if Height(t.left.left) < Height(t.left.right) {
      LeftRightCase(t);
    } else {
      LeftLeftCase(t);
    }
  }

  /** The inner grandchild is the taller: a double rotation. */
  lemma LeftRightCase(t: Tree)
    requires t.Node? && t.left.Node? && IsAvl(t.left) && IsAvl(t.right)
    requires Depth(t.left.right) == Depth(t.right) + 1 && Depth(t.left.left) == Depth(t.right)
    ensures t.left.right.Node?
    ensures IsAvl(RotRight(t.(left := RotLeft(t.left))))
    ensures Depth(RotRight(t.(left := RotLeft(t.left)))) == Depth(t.right) + 2
  {
    var L, R := t.left, t.right;
    AvlChildren(L);
    var LL, LR := L.left, L.right;
    assert LR.Node?;
    AvlChildren(LR);
    var A, B := LR.left, LR.right;
    var x := RotLeft(L);
    assert x.left.left == LL && x.left.right == A && x.right == B;
    var r := RotRight(t.(left := x));
    assert r.left == x.left && r.right.left == B && r.right.right == R;
    ConsistentChildren(x);
    ConsistentChildren(r);
    AvlNode(x.left);
    AvlNode(r.right);
    AvlNode(r);
  }

  /** The outer grandchild is at least as tall: a single rotation. */
  lemma LeftLeftCase(t: Tree)
    requires t.Node? && t.left.Node? && IsAvl(t.left) && IsAvl(t.right)
    requires Depth(t.left.left) == Depth(t.right) + 1
    requires Depth(t.left.right) <= Depth(t.right) + 1
    ensures IsAvl(RotRight(t))
    ensures Depth(t.right) + 2 <= Depth(RotRight(t)) <= Depth(t.right) + 3
  {
    AvlChildren(t.left);
    var r := RotRight(t);
    assert r.left == t.left.left && r.right.left == t.left.right && r.right.right == t.right;
    ConsistentChildren(r);
    AvlNode(r.right);
    AvlNode(r);
  }

  /** The mirror image of `FixLeftBalances`. */
  lemma FixRightBalances(t: Tree)
    requires t.Node? && IsAvl(t.left) && IsAvl(t.right)
    requires Depth(t.right) == Depth(t.left) + 2
    ensures IsAvl(FixRight(t))
    ensures Depth(t.left) + 2 <= Depth(FixRight(t)) <= Depth(t.left) + 3
  {
    assert t.right.Node?;
    AvlChildren(t.right);
    if Height(t.right.right) < Height(t.right.left) {
      RightLeftCase(t);
    } else {
      RightRightCase(t);
    }
  }

  lemma RightLeftCase(t: Tree)
    requires t.Node? && t.right.Node? && IsAvl(t.left) && IsAvl(t.right)
    requires Depth(t.right.left) == Depth(t.left) + 1 && Depth(t.right.right) == Depth(t.left)
    ensures t.right.left.Node?
    ensures IsAvl(RotLeft(t.(right := RotRight(t.right))))
    ensures Depth(RotLeft(t.(right := RotRight(t.right)))) == Depth(t.left) + 2
  {
    var L, R := t.left, t.right;
    AvlChildren(R);
    var RL, RR := R.left, R.right;
    assert RL.Node?;
    AvlChildren(RL);
    var A, B := RL.left, RL.right;
    var x := RotRight(R);
    assert x.right.right == RR && x.right.left == B && x.left == A;
    var r := RotLeft(t.(right := x));
    assert r.right == x.right && r.left.right == A && r.left.left == L;
    ConsistentChildren(x);
    ConsistentChildren(r);
    AvlNode(x.right);
    AvlNode(r.left);
    AvlNode(r);
  }

  lemma RightRightCase(t: Tree)
    requires t.Node? && t.right.Node? && IsAvl(t.left) && IsAvl(t.right)
    requires Depth(t.right.right) == Depth(t.left) + 1
    requires Depth(t.right.left) <= Depth(t.left) + 1
    ensures IsAvl(RotLeft(t))
    ensures Depth(t.left) + 2 <= Depth(RotLeft(t)) <= Depth(t.left) + 3
  {
    AvlChildren(t.right);
    var r := RotLeft(t);
    assert r.right == t.right.right && r.left.right == t.right.left && r.left.left == t.left;
    ConsistentChildren(r);
    AvlNode(r.left);
    AvlNode(r);
  }

  /** One step of the upward walk on a node with AVL subtrees whose
      depths differ by at most two yields an AVL tree; its height is the
      taller child's plus zero or one, and exactly plus one when no
      rotation was needed. */
  lemma FixNodeBalances(t: Tree)
    requires t.Node? && IsAvl(t.left) && IsAvl(t.right)
    requires Depth(t.left) <= Depth(t.right) + 2 && Depth(t.right) <= Depth(t.left) + 2
    ensures IsAvl(FixNode(t))
    ensures Max(Depth(t.left), Depth(t.right)) <= Depth(FixNode(t)) <= Max(Depth(t.left), Depth(t.right)) + 1
    ensures Depth(t.left) <= Depth(t.right) + 1 && Depth(t.right) <= Depth(t.left) + 1 ==>
              Depth(FixNode(t)) == Max(Depth(t.left), Depth(t.right)) + 1
  {
    var u := Update(t);
    if Depth(t.left) == Depth(t.right) + 2 {
      FixLeftBalances(u);
    } else if Depth(t.left) + 2 == Depth(t.right) {
      FixRightBalances(u);
    } else {
      assert FixNode(t) == u;
      AvlNode(u);
    }
  }

  // ---------------------------------------------------------------------
  // The upward walk

  /** The path above a subtree whose height before the change was `h`:
      every sibling is an AVL tree within one of the height of the subtree
      it was paired with, all the way to the root. */
  ghost predicate Fits(path: Path, h: nat)
    decreases |path|
  {
    path == [] ||
    (var s := path[0].sibling;
     && IsAvl(s)
     && h <= Depth(s) + 1 && Depth(s) <= h + 1
     && Fits(path[1..], 1 + Max(h, Depth(s))))
  }

  lemma FitsTail(path: Path, h: nat)
    requires path != [] && Fits(path, h)
    ensures var s := path[0].sibling;
      && IsAvl(s)
      && h <= Depth(s) + 1 && Depth(s) <= h + 1
      && Fits(path[1..], 1 + Max(h, Depth(s)))
  {
  }

  lemma FitsCons(path: Path, h: nat, above: nat)
    requires path != []
    requires IsAvl(path[0].sibling)
    requires h <= Depth(path[0].sibling) + 1 && Depth(path[0].sibling) <= h + 1
    requires above == 1 + Max(h, Depth(path[0].sibling)) && Fits(path[1..], above)
    ensures Fits(path, h)
  {
  }

  lemma PlugUnfold(path: Path, t: Tree)
    requires path != []
    ensures Plug(path, t) == Plug(path[1..], Attach(path[0], t))
  {
  }

  lemma AscendUnfold(sub: Tree, path: Path)
    requires path != []
    ensures Ascend(sub, path) == Ascend(FixNode(Attach(path[0], sub)), path[1..])
  {
  }

  /** A parent that is an AVL tree has AVL children of near-equal depth. */
  lemma AttachAvl(f: Frame, t: Tree)
    requires IsAvl(Attach(f, t))
    ensures IsAvl(t) && IsAvl(f.sibling)
    ensures Depth(t) <= Depth(f.sibling) + 1 && Depth(f.sibling) <= Depth(t) + 1
    ensures Depth(Attach(f, t)) == 1 + Max(Depth(t), Depth(f.sibling))
  {
    var n := Attach(f, t);
    AvlChildren(n);
    if f.dir == Left {
      assert n.left == t && n.right == f.sibling;
    } else {
      assert n.left == f.sibling && n.right == t;
    }
  }

  /** Any position of an AVL tree focuses an AVL subtree whose path fits it. */
  lemma {:induction false} PlugFits(path: Path, t: Tree)
    requires IsAvl(Plug(path, t))
    ensures IsAvl(t) && Fits(path, Depth(t))
    decreases |path|
  {
    if path != [] {
      var n := Attach(path[0], t);
      PlugUnfold(path, t);
      PlugFits(path[1..], n);
      AttachAvl(path[0], t);
      FitsCons(path, Depth(t), Depth(n));
    }
  }

  /** One level of the walk: re-attaching a subtree whose height moved by
      at most one, next to a sibling that fitted the old height, and fixing
      the parent yields an AVL tree within one of the parent's old height. */
  lemma StepBalances(f: Frame, sub: Tree, h: nat)
    requires IsAvl(sub) && IsAvl(f.sibling)
    requires h <= Depth(f.sibling) + 1 && Depth(f.sibling) <= h + 1
    requires Depth(sub) <= h + 1 && h <= Depth(sub) + 1
    ensures IsAvl(FixNode(Attach(f, sub)))
    ensures Depth(FixNode(Attach(f, sub))) <= 1 + Max(h, Depth(f.sibling)) + 1
    ensures 1 + Max(h, Depth(f.sibling)) <= Depth(FixNode(Attach(f, sub))) + 1
  {
    var n := Attach(f, sub);
    FixNodeBalances(n);
    if f.dir == Left {
      assert n.left == sub && n.right == f.sibling;
    } else {
      assert n.left == f.sibling && n.right == sub;
    }
  }

  /** If the subtree under repair is an AVL tree whose height moved by at
      most one from `h`, the walk to the root produces an AVL tree. */
  lemma {:induction false} AscendBalances(sub: Tree, path: Path, h: nat)
    requires IsAvl(sub) && Fits(path, h)
    requires Depth(sub) <= h + 1 && h <= Depth(sub) + 1
    ensures IsAvl(Ascend(sub, path))
    decreases |path|
  {
    if path != [] {
      var H := 1 + Max(h, Depth(path[0].sibling));
      var up := FixNode(Attach(path[0], sub));
      FitsTail(path, h);
      StepBalances(path[0], sub, h);
      AscendBalances(up, path[1..], H);
      AscendUnfold(sub, path);
    }
  }

  /** Linking a fresh node into an empty slot of an AVL tree and fixing
      from it gives an AVL tree whose in-order sequence has the new node in
      that slot and whose root counts one more node. */
  lemma InsertFixBalanced(path: Path, id: NodeId)
    requires IsAvl(Plug(path, Leaf))
    ensures IsAvl(Fix(Init(id), path))
    ensures InOrder(Fix(Init(id), path)) == Before(path) + [id] + After(path)
    ensures Cnt(Fix(Init(id), path)) == Cnt(Plug(path, Leaf)) + 1
  {
    PlugFits(path, Leaf);
    FixNodeBalances(Init(id));
    AscendBalances(FixNode(Init(id)), path, 0);
  }

  // ---------------------------------------------------------------------
  // Unlinking

  /** Unlinking a node with at most one child is the upward walk started
      from that child in the node's place. */
  lemma DelEasyIsAscend(path: Path, t: Tree)
    requires t.Node? && (t.left.Leaf? || t.right.Leaf?)
    ensures DelEasy(path, t) == Ascend(OnlyChild(t), path)
  {
    if path != [] {
      AscendUnfold(OnlyChild(t), path);
    }
  }

  /** Unlinking a node with at most one child keeps an AVL tree AVL. */
  lemma DelEasyBalanced(path: Path, t: Tree)
    requires t.Node? && (t.left.Leaf? || t.right.Leaf?)
    requires IsAvl(Plug(path, t))
    ensures IsAvl(DelEasy(path, t))
  {
    PlugFits(path, t);
    AvlChildren(t);
    AscendBalances(OnlyChild(t), path, Depth(t));
    DelEasyIsAscend(path, t);
  }

  /** Stepping from a node into its right subtree. */
  lemma RightStep(path: Path, t: Tree)
    requires t.Node?
    ensures var p1 := [RightFrame(t)] + path;
      && p1 != [] && p1[0] == RightFrame(t) && p1[1..] == path
      && Plug(p1, t.right) == Plug(path, t)
      && Before(p1) == Before(path) + InOrder(t.left) + [t.id]
      && After(p1) == After(path)
  {
    var p1 := [RightFrame(t)] + path;
    assert p1[0] == RightFrame(t) && p1[1..] == path;
    assert Attach(RightFrame(t), t.right) == t;
  }

  /** Unlinking any node keeps an AVL tree AVL. */
  lemma DelBalanced(path: Path, t: Tree)
    requires t.Node? && IsAvl(Plug(path, t))
    ensures IsAvl(Del(path, t))
  {
    if t.left.Leaf? || t.right.Leaf? {
      DelEasyBalanced(path, t);
    } else {
      RightStep(path, t);
      var z := LeftmostZip(t.right, [RightFrame(t)] + path);
      DelEasyBalanced(z.0, z.1);
    }
  }

  /** No identity occurs twice. */
  ghost predicate Distinct(s: seq<NodeId>)
    decreases |s|
  {
    s == [] || (s[0] !in s[1..] && Distinct(s[1..]))
  }

  lemma {:induction false} DistinctSplit(a: seq<NodeId>, x: NodeId, b: seq<NodeId>)
    requires Distinct(a + [x] + b)
    ensures x !in a && x !in b
    decreases |a|
  {
    var s := a + [x] + b;
    if a == [] {
      assert s[0] == x && s[1..] == b;
    } else {
      assert s[0] == a[0] && s[1..] == a[1..] + [x] + b;
      assert x in s[1..];
      DistinctSplit(a[1..], x, b);
      assert a == [a[0]] + a[1..];
    }
  }

  lemma {:induction false} RenameAbsent(s: seq<NodeId>, a: NodeId, b: NodeId)
    requires a !in s
    ensures Rename(s, a, b) == s
    decreases |s|
  {
    if s != [] {
      RenameAbsent(s[1..], a, b);
    }
  }

  /** With two children, the successor is the leftmost node of the right
      subtree: it has no left child and it directly follows the node in
      the in-order sequence. */
  lemma SuccessorIsNext(path: Path, t: Tree)
    requires t.Node? && t.left.Node? && t.right.Node?
    ensures var z := LeftmostZip(t.right, [RightFrame(t)] + path);
      var s := InOrder(Plug(path, t));
      var k := |Before(path)| + |InOrder(t.left)|;
      && z.1.left.Leaf?
      && Plug(z.0, z.1) == Plug(path, t)
      && k + 1 < |s| && s[k] == t.id && s[k + 1] == z.1.id
  {
    RightStep(path, t);
    var z := LeftmostZip(t.right, [RightFrame(t)] + path);
    SuccessorUnlinked(path, t);
    var A := Before(path) + InOrder(t.left);
    var B := InOrder(t.right) + After(path);
    PlugSplit(path, t);
    assert B[0] == z.1.id;
    assert (A + [t.id] + B)[|A| + 1] == B[0];
  }

  /** Renaming an identity that occurs once, between `a` and `x`. */
  lemma RenameOnce(a: seq<NodeId>, id: NodeId, v: NodeId, x: seq<NodeId>)
    requires id !in a && id !in x
    ensures Rename(a + [id] + x, id, v) == a + [v] + x
  {
    RenameConcat(a + [id], x, id, v);
    RenameConcat(a, [id], id, v);
    RenameAbsent(a, id, v);
    RenameAbsent(x, id, v);
    assert Rename([id], id, v) == [v] + Rename([], id, v);
  }

  lemma DelTwoUnfold(path: Path, t: Tree)
    requires t.Node? && t.left.Node? && t.right.Node?
    ensures var z := LeftmostZip(t.right, [RightFrame(t)] + path);
      Del(path, t) == Relabel(DelEasy(z.0, z.1), t.id, z.1.id)
  {
  }

  /** In the two-child case, unlinking the successor leaves the node's
      identity directly followed by what came after the successor. */
  lemma SuccessorUnlinked(path: Path, t: Tree)
    requires t.Node? && t.left.Node? && t.right.Node?
    ensures var z := LeftmostZip(t.right, [RightFrame(t)] + path);
      var x := InOrder(z.1.right) + After(z.0);
      && [z.1.id] + x == InOrder(t.right) + After(path)
      && InOrder(DelEasy(z.0, z.1)) == Before(path) + InOrder(t.left) + [t.id] + x
  {
    RightStep(path, t);
    var z := LeftmostZip(t.right, [RightFrame(t)] + path);
    var v, rs, az := z.1.id, InOrder(z.1.right), After(z.0);
    assert InOrder(z.1.left) == [];
    Assoc3([v], rs, az);
    var pre := Before(path) + InOrder(t.left) + [t.id];
    assert InOrder(DelEasy(z.0, z.1)) == pre + [] + rs + az;
    Assoc3(pre, rs, az);
    assert pre + [] == pre;
  }

  /** The two-child case of `DelInOrder`, given that the node's identity
      occurs nowhere else. */
  lemma DelTwoInOrder(path: Path, t: Tree)
    requires t.Node? && t.left.Node? && t.right.Node?
    requires t.id !in Before(path) + InOrder(t.left)
    requires t.id !in InOrder(t.right) + After(path)
    ensures InOrder(Del(path, t)) == (Before(path) + InOrder(t.left)) + (InOrder(t.right) + After(path))
  {
    var z := LeftmostZip(t.right, [RightFrame(t)] + path);
    SuccessorUnlinked(path, t);
    RenameSplice(Before(path) + InOrder(t.left), t.id, z.1.id,
                 InOrder(z.1.right) + After(z.0), InOrder(t.right) + After(path));
    DelTwoUnfold(path, t);
  }

  lemma PlugSplit(path: Path, t: Tree)
    requires t.Node?
    ensures InOrder(Plug(path, t))
         == (Before(path) + InOrder(t.left)) + [t.id] + (InOrder(t.right) + After(path))
  {
    var a, l, r, b := Before(path), InOrder(t.left), InOrder(t.right), After(path);
    var x := [t.id];
    assert InOrder(t) == l + x + r;
    Assoc3(l, x, r);
    Assoc3(a, l, x + r);
    Assoc3(a + l, x + r, b);
    Assoc3(x, r, b);
    Assoc3(a + l, x, r + b);
  }

  /** Unlinking removes exactly the node's identity from the in-order
      sequence; every other node keeps its relative order. */
  lemma DelInOrder(path: Path, t: Tree)
    requires t.Node? && Distinct(InOrder(Plug(path, t)))
    ensures InOrder(Del(path, t)) == Before(path) + InOrder(t.left) + InOrder(t.right) + After(path)
  {
    if t.left.Node? && t.right.Node? {
      PlugSplit(path, t);
      DistinctSplit(Before(path) + InOrder(t.left), t.id, InOrder(t.right) + After(path));
      DelTwoInOrder(path, t);
      Assoc4(Before(path), InOrder(t.left), InOrder(t.right), After(path));
    } else {
      assert Del(path, t) == DelEasy(path, t);
    }
  }

  lemma Assoc4(a: seq<NodeId>, b: seq<NodeId>, c: seq<NodeId>, d: seq<NodeId>)
    ensures (a + b) + (c + d) == a + b + c + d
    ensures (a + b) + [] + (c + d) == a + b + c + d
  {
  }

  /** Renaming a unique identity to the first element of what follows it. */
  lemma RenameSplice(a: seq<NodeId>, id: NodeId, v: NodeId, x: seq<NodeId>, b: seq<NodeId>)
    requires id !in a && id !in b && [v] + x == b
    ensures Rename(a + [id] + x, id, v) == a + b
  {
    assert x == b[1..];
    RenameOnce(a, id, v, x);
  }

  /** Unlinking from an AVL tree with distinct identities: the original
      in-order sequence is `A + [t.id] + B`, the result's is `A + B`, the
      result is an AVL tree, and the root count drops by exactly one. */
  lemma DelRemovesOne(path: Path, t: Tree)
    requires t.Node? && IsAvl(Plug(path, t)) && Distinct(InOrder(Plug(path, t)))
    ensures var A := Before(path) + InOrder(t.left);
      var B := InOrder(t.right) + After(path);
      && InOrder(Plug(path, t)) == A + [t.id] + B
      && InOrder(Del(path, t)) == A + B
    ensures IsAvl(Del(path, t)) && Cnt(Del(path, t)) + 1 == Cnt(Plug(path, t))
  {
    DelSplice(path, t);
    DelBalanced(path, t);
  }

  lemma DelSplice(path: Path, t: Tree)
    requires t.Node? && Distinct(InOrder(Plug(path, t)))
    ensures var A := Before(path) + InOrder(t.left);
      var B := InOrder(t.right) + After(path);
      && InOrder(Plug(path, t)) == A + [t.id] + B
      && InOrder(Del(path, t)) == A + B
      && |InOrder(Del(path, t))| + 1 == |InOrder(Plug(path, t))|
  {
    PlugSplit(path, t);
    DelInOrder(path, t);
    Assoc4(Before(path), InOrder(t.left), InOrder(t.right), After(path));
  }
}

=== FILE: bits.dfy ===
/**
  Bitwise AND on natural numbers, and the power-of-two facts the hash table
  relies on: a bucket index is `hcode & mask` with `mask == capacity - 1`,
  and a capacity is accepted only when `n > 0 && ((n - 1) & n) == 0`.
 */
module Bits {

  /** Bitwise AND of two naturals, defined bit by bit from the least
      significant bit up. */
  function BitAnd(a: nat, b: nat): (r: nat)
    ensures r <= a && r <= b
    decreases a
  {
    if a == 0 || b == 0 then 0
    else 2 * BitAnd(a / 2, b / 2) + (if a % 2 == 1 && b % 2 == 1 then 1 else 0)
  }

  /** Reference definition: n is 1, 2, 4, 8, ... */
  ghost predicate IsPowerOfTwo(n: nat)
    decreases n
  {
    n == 1 || (n >= 2 && n % 2 == 0 && IsPowerOfTwo(n / 2))
  }

  /** The test the table initialiser asserts on its capacity argument. */
  predicate PowerOfTwoTest(n: nat)
  {
    n > 0 && BitAnd(n - 1, n) == 0
  }

  lemma {:induction false} BitAndSelf(a: nat)
    ensures BitAnd(a, a) == a
    decreases a
  {
    if a > 0 {
      BitAndSelf(a / 2);
    }
  }

  /** The bit test accepts exactly the powers of two. */
  lemma {:induction false} PowerOfTwoTestCorrect(n: nat)
    ensures PowerOfTwoTest(n) <==> IsPowerOfTwo(n)
    decreases n
  {
    if n == 0 || n == 1 {
    } else if n % 2 == 0 {
      var m := n / 2;
      assert (n - 1) / 2 == m - 1;
      assert BitAnd(n - 1, n) == 2 * BitAnd(m - 1, m);
      PowerOfTwoTestCorrect(m);
    } else {
      var m := n / 2;
      assert (n - 1) / 2 == m && n / 2 == m;
      BitAndSelf(m);
      assert BitAnd(n - 1, n) == 2 * m;
    }
  }

  /** Doubling keeps a power of two a power of two. */
  lemma DoublePowerOfTwo(n: nat)
    requires IsPowerOfTwo(n)
    ensures IsPowerOfTwo(2 * n) && PowerOfTwoTest(2 * n)
  {
    assert (2 * n) / 2 == n;
    PowerOfTwoTestCorrect(2 * n);
  }

  lemma ModOfDouble(h: nat, m: nat)
    requires m > 0
    ensures h % (2 * m) == 2 * ((h / 2) % m) + h % 2
  {
    var q := h / 2;
    var s := q % m;
    var k := q / m;
    assert q == m * k + s;
    assert h == 2 * q + h % 2;
    assert h == (2 * m) * k + (2 * s + h % 2);
    assert 0 <= 2 * s + h % 2 < 2 * m;
    ModUnique(h, 2 * m, k, 2 * s + h % 2);
  }

  lemma ModUnique(h: nat, d: nat, k: nat, r: nat)
    requires d > 0 && r < d && h == d * k + r
    ensures h % d == r
  {
    var q := h / d;
    var r' := h % d;
    assert d * q + r' == d * k + r;
    if k > q {
      assert d * k - d * q == d * (k - q);
      MulMonotone(d, k - q);
      assert false;
    } else if k < q {
      assert d * q - d * k == d * (q - k);
      MulMonotone(d, q - k);
      assert false;
    }
  }

  lemma MulMonotone(d: nat, x: nat)
    requires x >= 1
    ensures d * x >= d
  {
  }

  /** Masking with `n - 1` for a power of two `n` is reduction modulo `n`:
      the bucket index is the hash code modulo the capacity. */
  lemma {:induction false} MaskIsModulo(h: nat, n: nat)
    requires IsPowerOfTwo(n)
    ensures BitAnd(h, n - 1) == h % n
    decreases n
  {
    if n > 1 {
      var m := n / 2;
      MaskIsModulo(h / 2, m);
      MaskStep(h, m);
      ModOfDouble(h, m);
    }
  }

  /** Masking with `2m - 1` keeps the low bit and masks the rest with `m - 1`. */
  lemma MaskStep(h: nat, m: nat)
    requires m >= 1
    ensures BitAnd(h, 2 * m - 1) == 2 * BitAnd(h / 2, m - 1) + h % 2
  {
    if h != 0 {
      assert (2 * m - 1) / 2 == m - 1;
      assert (2 * m - 1) % 2 == 1;
    }
  }
}

=== FILE: buckets.dfy ===
/**
  The contents of a bucket array: a sequence of chains viewed as one
  multiset, and how it changes when a single chain is replaced.
 */
module Buckets {

  /** Every element stored in any chain, with multiplicity. */
  ghost function ChainsContents<T>(b: seq<seq<T>>): multiset<T>
    decreases |b|
  {
    if b == [] then multiset{} else multiset(b[0]) + ChainsContents(b[1..])
  }

  /** Replacing chain `i` by `c` swaps that chain's elements for those of `c`. */
  lemma {:induction false} UpdateChainContents<T>(b: seq<seq<T>>, i: nat, c: seq<T>)
    requires i < |b|
    ensures ChainsContents(b[i := c]) + multiset(b[i]) == ChainsContents(b) + multiset(c)
    decreases |b|
  {
    if i == 0 {
      assert b[i := c][1..] == b[1..];
    } else {
      var b' := b[i := c];
      assert b'[0] == b[0];
      assert b'[1..] == b[1..][i - 1 := c];
      UpdateChainContents(b[1..], i - 1, c);
      assert b[1..][i - 1] == b[i];
      calc {
        ChainsContents(b') + multiset(b[i]);
        multiset(b[0]) + (ChainsContents(b[1..][i - 1 := c]) + multiset(b[1..][i - 1]));
        multiset(b[0]) + (ChainsContents(b[1..]) + multiset(c));
      }
    }
  }

  lemma {:induction false} ElementInContents<T>(b: seq<seq<T>>, i: nat, j: nat)
    requires i < |b| && j < |b[i]|
    ensures b[i][j] in ChainsContents(b)
    decreases |b|
  {
    if i > 0 {
      ElementInContents(b[1..], i - 1, j);
    }
  }

  lemma {:induction false} LocateElement<T>(b: seq<seq<T>>, x: T) returns (i: nat, j: nat)
    requires x in ChainsContents(b)
    ensures i < |b| && j < |b[i]| && b[i][j] == x
    decreases |b|
  {
    if x in multiset(b[0]) {
      i := 0;
      j :| 0 <= j < |b[0]| && b[0][j] == x;
    } else {
      var i', j' := LocateElement(b[1..], x);
      i, j := i' + 1, j';
    }
  }

  lemma {:induction false} EmptyChains<T>(b: seq<seq<T>>)
    requires forall i :: 0 <= i < |b| ==> b[i] == []
    ensures ChainsContents(b) == multiset{}
    decreases |b|
  {
    if b != [] {
      EmptyChains(b[1..]);
    }
  }

  /** Multiset addition cancels on the right. */
  lemma CancelRight<T>(a: multiset<T>, b: multiset<T>, c: multiset<T>)
    requires a + b == c + b
    ensures a == c
  {
    assert forall x :: a[x] == (a + b)[x] - b[x];
    assert forall x :: c[x] == (c + b)[x] - b[x];
  }
}

=== FILE: hashmap_props.dfy ===
/**
  Properties of the public hash-map operations that relate several calls:
  what an insertion makes visible to a lookup, what a deletion hides, and
  that repeated lookups finish a migration.
 */
module HashMapProps {
  import opened Bits
  import opened HashTable

  /** The bucket index is the hash code modulo the number of buckets. */
  lemma BucketIsModulo(t: HTab, hcode: nat)
    requires ValidTab(t) && t.tab.Some?
    ensures BucketOf(hcode, t.mask) == hcode % |t.tab.value|
  {
    MaskIsModulo(hcode, |t.tab.value|);
  }

  /** A stored node that matches the key makes the lookup succeed. */
  lemma LookupFindsStored(m: HMap, x: HNode, key: HNode, eq: (HNode, HNode) -> bool)
    requires Valid(m) && x in Contents(m) && Matches(x, key, eq)
    ensures HmLookup(m, key, eq).1.Some?
  {
    assert !NoMatch(Contents(m), key, eq);
  }

  /** After inserting `x`, a lookup with `x` as the key (under an equality
      that accepts `x` against itself) finds a node. */
  lemma InsertThenLookup(m: HMap, x: HNode, eq: (HNode, HNode) -> bool)
    requires Valid(m) && eq(x, x)
    ensures HmLookup(HmInsert(m, x), x, eq).1.Some?
  {
    var m' := HmInsert(m, x);
    assert x in Contents(m');
    LookupFindsStored(m', x, x, eq);
  }

  /** `x` is the only node of `c` that can match `key`. */
  ghost predicate OnlyMatch(c: multiset<HNode>, key: HNode, eq: (HNode, HNode) -> bool, x: HNode)
  {
    forall n :: n in c && Matches(n, key, eq) ==> n == x
  }

  /** At most one stored node, stored once, matches the key. */
  ghost predicate UniqueMatch(m: HMap, key: HNode, eq: (HNode, HNode) -> bool)
  {
    forall a :: a in Contents(m) && Matches(a, key, eq) ==>
      Contents(m)[a] == 1 && OnlyMatch(Contents(m), key, eq, a)
  }

  /** When keys are unique, deleting a key leaves nothing for a later
      lookup of the same key to find. */
  lemma DeleteThenLookupMisses(m: HMap, key: HNode, eq: (HNode, HNode) -> bool)
    requires Valid(m) && UniqueMatch(m, key, eq)
    ensures HmLookup(HmDelete(m, key, eq).0, key, eq).1.None?
  {
    var d := HmDelete(m, key, eq);
    var m' := d.0;
    if d.1.Some? {
      var v := d.1.value;
      assert Contents(m')[v] == 0;
      forall n | n in Contents(m') ensures !Matches(n, key, eq) {
        assert n in Contents(m) && n != v;
      }
    }
  }

  /** When `x` is the only stored node matching its own key, deleting that
      key detaches `x`. */
  lemma DeleteOnlyMatch(m: HMap, x: HNode, eq: (HNode, HNode) -> bool)
    requires Valid(m) && x in Contents(m) && Matches(x, x, eq)
    requires OnlyMatch(Contents(m), x, eq, x)
    ensures var d := HmDelete(m, x, eq);
      d.1 == Some(x) && Contents(d.0) == Contents(m) - multiset{x} && HmSize(d.0) + 1 == HmSize(m)
  {
    var d := HmDelete(m, x, eq);
    assert d.1.Some?;
  }

  /** Inserting a node whose key is not yet present and then deleting that
      key removes exactly the inserted node and restores the contents. */
  lemma InsertThenDelete(m: HMap, x: HNode, eq: (HNode, HNode) -> bool)
    requires Valid(m) && eq(x, x)
    requires NoMatch(Contents(m), x, eq)
    ensures var d := HmDelete(HmInsert(m, x), x, eq);
      d.1 == Some(x) && Contents(d.0) == Contents(m) && HmSize(d.0) == HmSize(m)
  {
    var m' := HmInsert(m, x);
    OnlyMatchAfterAdding(Contents(m), x, eq);
    DeleteOnlyMatch(m', x, eq);
  }

  lemma OnlyMatchAfterAdding(c: multiset<HNode>, x: HNode, eq: (HNode, HNode) -> bool)
    requires NoMatch(c, x, eq)
    ensures OnlyMatch(c + multiset{x}, x, eq, x)
    ensures c + multiset{x} - multiset{x} == c
  {
  }

  /** Keeps looking `key` up until the old table is released; reports how
      many lookups it took. Each lookup migrates a batch, so a migration
      of `s` nodes ends after at most `s / RehashingWork + 1` lookups, and
      no node is lost or duplicated on the way. */
  method DrainMigration(m: HMap, key: HNode, eq: (HNode, HNode) -> bool) returns (r: HMap, calls: nat)
    requires Valid(m)
    ensures Valid(r) && Contents(r) == Contents(m) && r.older == EmptyTab
    ensures 1 <= calls <= m.older.size / RehashingWork + 1
  {
    r := LookupStep(m, key, eq);
    calls := 1;
    while r.older != EmptyTab
      invariant Valid(r) && Contents(r) == Contents(m) && calls >= 1
      invariant r.older.size == 0 ==> r.older == EmptyTab
      invariant r.older != EmptyTab ==> RehashingWork * calls + r.older.size <= m.older.size
      invariant r.older == EmptyTab ==> RehashingWork * (calls - 1) <= m.older.size
      decreases r.older.size
    {
      var next := LookupStep(r, key, eq);
      BatchArith(r.older, next.older, calls, m.older.size);
      r := next;
      calls := calls + 1;
    }
    DivBound(m.older.size, calls);
  }

  /** One lookup of the drain loop, returning the map it leaves behind.
      Its contract is the part of `HashTable.LookupMigratesThenSearches`
      (and of `HmLookup`'s own contract) that the loop needs; handing the
      loop only these facts keeps its proof small. */
  method LookupStep(m: HMap, key: HNode, eq: (HNode, HNode) -> bool) returns (next: HMap)
    requires Valid(m)
    ensures next == HmLookup(m, key, eq).0
    ensures Valid(next) && Contents(next) == Contents(m)
    ensures next.older.size == m.older.size - Min(RehashingWork, m.older.size)
    ensures next.older.size == 0 ==> next.older == EmptyTab
  {
    next := HmLookup(m, key, eq).0;
    LookupMigratesThenSearches(m, key, eq);
  }

  /** During a migration, one help call either releases `older` or moves a
      full batch of `RehashingWork` nodes out of it. */
  lemma BatchProgress(m: HMap)
    requires Valid(m) && m.older != EmptyTab
    ensures var r := HelpRehashing(m);
      r.older == EmptyTab || r.older.size + RehashingWork == m.older.size
  {
  }

  /** The drain loop's counting: a batch that shrinks a non-empty old table
      as a help call does keeps `RehashingWork * calls` below the nodes
      moved so far. */
  lemma BatchArith(o: HTab, o': HTab, calls: nat, s: nat)
    requires o != EmptyTab && (o.size == 0 ==> o == EmptyTab)
    requires o'.size == o.size - Min(RehashingWork, o.size) && (o'.size == 0 ==> o' == EmptyTab)
    requires RehashingWork * calls + o.size <= s
    ensures o'.size < o.size
    ensures o' != EmptyTab ==> RehashingWork * (calls + 1) + o'.size <= s
    ensures o' == EmptyTab ==> RehashingWork * calls <= s
  {
  }

  lemma DivBound(s: nat, calls: nat)
    requires calls >= 1 && RehashingWork * (calls - 1) <= s
    ensures calls <= s / RehashingWork + 1
  {
  }
}

=== FILE: hashtable.dfy ===
/**
  The progressive-rehash hash map: two fixed-capacity chained tables,
  `newer` and `older`, with a bounded amount of migration from `older`
  into `newer`. Lookup and delete migrate before they search; insert
  migrates last, after it has pushed the node and possibly started a
  resize; clear and size never migrate.

  Nodes are intrusive in the original; here a node is its identity and
  the hash code the caller cached in it, and its `next` link is its
  position in the chain that holds it. The caller's equality callback is a
  total function parameter `eq`, consulted only when hash codes agree.
 */
module HashTable {
  import opened Bits
  import opened Buckets

  datatype Option<T> = None | Some(value: T)

  /** A hash node: identity and cached hash code. */
  datatype HNode = HNode(id: nat, hcode: nat)

  /** One bucket: the chain starting at the bucket's head pointer. */
  type Chain = seq<HNode>

  /** A fixed-capacity table; `tab == None` is the unallocated state. */
  datatype HTab = HTab(tab: Option<seq<Chain>>, mask: nat, size: nat)

  /** The public map: the table receiving writes, the table being drained,
      and the next bucket of `older` to drain. */
  datatype HMap = HMap(newer: HTab, older: HTab, migratePos: nat)

  /** The position of a node: its bucket, and its index in that chain
      (index 0 is the slot of the bucket head itself). */
  datatype Slot = Slot(bucket: nat, index: nat)

  /** Nodes moved per call while a migration is in flight. */
  const RehashingWork: nat := 128
  /** A resize is triggered when `size >= capacity * MaxLoadFactor`. */
  const MaxLoadFactor: nat := 8
  /** Capacity of the first table allocated by an insertion. */
  const InitialCapacity: nat := 4

  /** The zero-initialised table and map. */
  const EmptyTab: HTab := HTab(None, 0, 0)
  const EmptyMap: HMap := HMap(EmptyTab, EmptyTab, 0)

  function Min(a: nat, b: nat): nat
  {
    if a < b then a else b
  }

  /** The bucket a hash code belongs to: `hcode & mask`. */
  function BucketOf(hcode: nat, mask: nat): (i: nat)
    ensures i <= mask
  {
    BitAnd(hcode, mask)
  }

  /** The match test of a chain walk: the cached hash codes are compared
      first, and `eq` is consulted only when they agree. The comparison is
      a shortcut: for an `eq` that only accepts nodes with equal hash
      codes, it never changes `eq`'s answer. */
  predicate Matches(n: HNode, key: HNode, eq: (HNode, HNode) -> bool): (r: bool)
    ensures (forall a, b :: eq(a, b) ==> a.hcode == b.hcode) ==> (r <==> eq(n, key))
  {
    n.hcode == key.hcode && eq(n, key)
  }

  /** No node of `c` matches `key`. */
  ghost predicate NoMatch(c: multiset<HNode>, key: HNode, eq: (HNode, HNode) -> bool)
  {
    forall n :: n in c ==> !Matches(n, key, eq)
  }

  // ---------------------------------------------------------------------
  // Table invariant and contents

  /** Every node sits in the bucket its hash code selects. */
  ghost predicate WellHashed(b: seq<Chain>, mask: nat)
  {
    forall i, j :: 0 <= i < |b| && 0 <= j < |b[i]| ==> BucketOf(b[i][j].hcode, mask) == i
  }

  ghost function TabContents(t: HTab): multiset<HNode>
  {
    if t.tab.Some? then ChainsContents(t.tab.value) else multiset{}
  }

  /** An unallocated table is empty with a zero mask; an allocated one has
      a power-of-two number of buckets, `mask == capacity - 1`, every node
      in its hash bucket, and `size` equal to the number of stored nodes. */
  ghost predicate ValidTab(t: HTab)
  {
    if t.tab.None? then t.mask == 0 && t.size == 0
    else
      && |t.tab.value| == t.mask + 1
      && IsPowerOfTwo(|t.tab.value|)
      && WellHashed(t.tab.value, t.mask)
      && t.size == |ChainsContents(t.tab.value)|
  }

  ghost predicate IsSlot(t: HTab, s: Slot)
  {
    t.tab.Some? && s.bucket < |t.tab.value| && s.index < |t.tab.value[s.bucket]|
  }

  function At(t: HTab, s: Slot): HNode
    requires IsSlot(t, s)
  {
    t.tab.value[s.bucket][s.index]
  }

  // ---------------------------------------------------------------------
  // Fixed-size table operations

  /** Allocates `n` empty buckets; `n` must pass the power-of-two test. */
  function HInit(n: nat): (t: HTab)
    requires PowerOfTwoTest(n)
    ensures ValidTab(t) && t.tab.Some? && |t.tab.value| == n
    ensures t.mask == n - 1 && t.size == 0
    ensures forall i :: 0 <= i < n ==> t.tab.value[i] == []
    ensures TabContents(t) == multiset{}
  {
    PowerOfTwoTestCorrect(n);
    var b: seq<Chain> := seq(n, _ => []);
    EmptyChains(b);
    HTab(Some(b), n - 1, 0)
  }

  /** Pushes `x` onto the head of its bucket's chain. */
  function HInsert(t: HTab, x: HNode): (r: HTab)
    requires ValidTab(t) && t.tab.Some?
    ensures ValidTab(r) && r.tab.Some? && r.mask == t.mask
    ensures r.size == t.size + 1
    ensures TabContents(r) == TabContents(t) + multiset{x}
    ensures r.tab.value[BucketOf(x.hcode, t.mask)] == [x] + t.tab.value[BucketOf(x.hcode, t.mask)]
    ensures forall i :: 0 <= i < |t.tab.value| && i != BucketOf(x.hcode, t.mask) ==>
              r.tab.value[i] == t.tab.value[i]
  {
    var b := t.tab.value;
    var i := BucketOf(x.hcode, t.mask);
    PushKeepsHashing(b, t.mask, x);
    PushContents(b, i, x);
    HTab(Some(Push(b, i, x)), t.mask, t.size + 1)
  }

  /** Chain `i` of `b` with `x` linked in front of its head. */
  function Push(b: seq<Chain>, i: nat, x: HNode): seq<Chain>
    requires i < |b|
  {
    b[i := [x] + b[i]]
  }

  lemma PushKeepsHashing(b: seq<Chain>, mask: nat, x: HNode)
    requires |b| == mask + 1 && WellHashed(b, mask)
    ensures WellHashed(Push(b, BucketOf(x.hcode, mask), x), mask)
  {
    var i := BucketOf(x.hcode, mask);
    var c := [x] + b[i];
    assert forall k :: 0 < k < |c| ==> c[k] == b[i][k - 1];
  }

  lemma PushContents(b: seq<Chain>, i: nat, x: HNode)
    requires i < |b|
    ensures ChainsContents(Push(b, i, x)) == ChainsContents(b) + multiset{x}
  {
    UpdateChainContents(b, i, [x] + b[i]);
    assert multiset([x] + b[i]) == multiset{x} + multiset(b[i]);
    CancelRight(ChainsContents(Push(b, i, x)), multiset(b[i]), ChainsContents(b) + multiset{x});
  }

  /** The first index at or after `from` whose node matches `key`. */
  function FindInChain(c: Chain, key: HNode, eq: (HNode, HNode) -> bool, from: nat): (r: Option<nat>)
    requires from <= |c|
    ensures r.Some? ==> from <= r.value < |c| && Matches(c[r.value], key, eq)
    ensures r.Some? ==> forall j :: from <= j < r.value ==> !Matches(c[j], key, eq)
    ensures r.None? ==> forall j :: from <= j < |c| ==> !Matches(c[j], key, eq)
    decreases |c| - from
  {
    if from == |c| then None
    else if Matches(c[from], key, eq) then Some(from)
    else FindInChain(c, key, eq, from + 1)
  }

  /** A node matching `key` can only be in the key's own bucket. */
  lemma MatchesOnlyInOwnBucket(t: HTab, key: HNode, eq: (HNode, HNode) -> bool)
    requires ValidTab(t) && t.tab.Some?
    requires forall j :: 0 <= j < |t.tab.value[BucketOf(key.hcode, t.mask)]| ==>
               !Matches(t.tab.value[BucketOf(key.hcode, t.mask)][j], key, eq)
    ensures NoMatch(TabContents(t), key, eq)
  {
    forall n | n in TabContents(t)
      ensures !Matches(n, key, eq)
    {
      var i, j := LocateElement(t.tab.value, n);
    }
  }

  /** Finds the slot of the first node in `key`'s bucket that matches. */
  function HLookup(t: HTab, key: HNode, eq: (HNode, HNode) -> bool): (r: Option<Slot>)
    requires ValidTab(t)
    ensures t.tab.None? ==> r.None?
    ensures r.Some? ==> IsSlot(t, r.value) && r.value.bucket == BucketOf(key.hcode, t.mask)
    ensures r.Some? ==> Matches(At(t, r.value), key, eq) && At(t, r.value) in TabContents(t)
    ensures r.Some? ==> forall j :: 0 <= j < r.value.index ==>
              !Matches(t.tab.value[r.value.bucket][j], key, eq)
    ensures r.None? <==> NoMatch(TabContents(t), key, eq)
  {
    if t.tab.None? then None
    else
      var pos := BucketOf(key.hcode, t.mask);
      var found := FindInChain(t.tab.value[pos], key, eq, 0);
      if found.Some? then
        ElementInContents(t.tab.value, pos, found.value);
        Some(Slot(pos, found.value))
      else
        MatchesOnlyInOwnBucket(t, key, eq);
        None
  }

  /** `x` is the first node of `key`'s bucket chain in `t` that matches:
      the node a walk from the bucket head stops at. */
  ghost predicate FirstMatch(t: HTab, key: HNode, eq: (HNode, HNode) -> bool, x: HNode)
  {
    && t.tab.Some?
    && BucketOf(key.hcode, t.mask) < |t.tab.value|
    && var c := t.tab.value[BucketOf(key.hcode, t.mask)];
       exists j :: 0 <= j < |c| && c[j] == x && Matches(x, key, eq) &&
         forall i :: 0 <= i < j ==> !Matches(c[i], key, eq)
  }

  /** A slot found by `HLookup` holds the first match of its chain. */
  lemma FoundIsFirstMatch(t: HTab, key: HNode, eq: (HNode, HNode) -> bool, s: Slot)
    requires IsSlot(t, s) && s.bucket == BucketOf(key.hcode, t.mask)
    requires Matches(At(t, s), key, eq)
    requires forall j :: 0 <= j < s.index ==> !Matches(t.tab.value[s.bucket][j], key, eq)
    ensures FirstMatch(t, key, eq, At(t, s))
  {
    var c := t.tab.value[s.bucket];
    assert c[s.index] == At(t, s);
  }

  /** At most one node is the first match: the search result is determined. */
  lemma FirstMatchUnique(t: HTab, key: HNode, eq: (HNode, HNode) -> bool, x: HNode, y: HNode)
    requires FirstMatch(t, key, eq, x) && FirstMatch(t, key, eq, y)
    ensures x == y
  {
    var c := t.tab.value[BucketOf(key.hcode, t.mask)];
    var j :| 0 <= j < |c| && c[j] == x && Matches(x, key, eq) &&
      forall i :: 0 <= i < j ==> !Matches(c[i], key, eq);
    var k :| 0 <= k < |c| && c[k] == y && Matches(y, key, eq) &&
      forall i :: 0 <= i < k ==> !Matches(c[i], key, eq);
  }

  /** Chain `i` of `b` with its `j`-th node unlinked. */
  function Unlink(b: seq<Chain>, i: nat, j: nat): (b': seq<Chain>)
    requires i < |b| && j < |b[i]|
  {
    b[i := b[i][..j] + b[i][j + 1..]]
  }

  lemma UnlinkKeepsHashing(b: seq<Chain>, mask: nat, i: nat, j: nat)
    requires i < |b| && j < |b[i]| && WellHashed(b, mask)
    ensures WellHashed(Unlink(b, i, j), mask)
  {
    var c := b[i];
    var c' := c[..j] + c[j + 1..];
    assert forall k :: 0 <= k < |c'| ==> c'[k] == (if k < j then c[k] else c[k + 1]);
  }

  lemma UnlinkContents(b: seq<Chain>, i: nat, j: nat)
    requires i < |b| && j < |b[i]|
    ensures b[i][j] in ChainsContents(b)
    ensures ChainsContents(Unlink(b, i, j)) == ChainsContents(b) - multiset{b[i][j]}
  {
    var c := b[i];
    var x := c[j];
    var c' := c[..j] + c[j + 1..];
    assert c == c[..j] + [x] + c[j + 1..];
    assert multiset(c) == multiset(c') + multiset{x};
    UpdateChainContents(b, i, c');
    ElementInContents(b, i, j);
    CancelRight(ChainsContents(Unlink(b, i, j)) + multiset{x}, multiset(c'), ChainsContents(b));
  }

  /** Unlinks the node at slot `s`, keeping the rest of its chain in order. */
  function HDetach(t: HTab, s: Slot): (r: (HTab, HNode))
    requires ValidTab(t) && IsSlot(t, s)
    ensures r.1 == At(t, s) && r.1 in TabContents(t)
    ensures ValidTab(r.0) && r.0.tab.Some? && r.0.mask == t.mask
    ensures r.0.size + 1 == t.size
    ensures TabContents(r.0) == TabContents(t) - multiset{r.1}
    ensures var c := t.tab.value[s.bucket];
      r.0.tab.value == t.tab.value[s.bucket := c[..s.index] + c[s.index + 1..]]
  {
    var b := t.tab.value;
    UnlinkKeepsHashing(b, t.mask, s.bucket, s.index);
    UnlinkContents(b, s.bucket, s.index);
    (HTab(Some(Unlink(b, s.bucket, s.index)), t.mask, t.size - 1), b[s.bucket][s.index])
  }

  // ---------------------------------------------------------------------
  // The two-table map

  /** Both tables are valid; while `older` is allocated, `newer` is too,
      and every bucket of `older` below `migratePos` has been drained. */
  ghost predicate Valid(m: HMap)
  {
    && ValidTab(m.newer)
    && ValidTab(m.older)
    && (m.older.tab.Some? ==>
          && m.newer.tab.Some?
          && m.migratePos <= |m.older.tab.value|
          && forall i :: 0 <= i < m.migratePos ==> m.older.tab.value[i] == [])
  }

  ghost function Contents(m: HMap): multiset<HNode>
  {
    TabContents(m.newer) + TabContents(m.older)
  }

  /** The number of stored nodes: the two tables' sizes added. */
  function HmSize(m: HMap): (n: nat)
    ensures Valid(m) ==> n == |Contents(m)|
  {
    m.newer.size + m.older.size
  }

  /** While `older` still holds nodes, `migratePos` is a bucket index of it. */
  lemma MigratePosInRange(m: HMap)
    requires Valid(m) && m.older.size > 0
    ensures m.older.tab.Some? && m.migratePos < |m.older.tab.value|
  {
    if m.migratePos == |m.older.tab.value| {
      EmptyChains(m.older.tab.value);
    }
  }

  /** Advances `migratePos` past a drained bucket of `older`. */
  function SkipBucket(m: HMap): (r: HMap)
    requires Valid(m) && m.older.size > 0
    requires m.migratePos < |m.older.tab.value| && m.older.tab.value[m.migratePos] == []
    ensures Valid(r) && r.newer == m.newer && r.older == m.older
    ensures r.migratePos == m.migratePos + 1
  {
    m.(migratePos := m.migratePos + 1)
  }

  /** Moves the head node of bucket `migratePos` of `older` into `newer`. */
  function MoveHead(m: HMap): (r: HMap)
    requires Valid(m) && m.older.size > 0
    requires m.migratePos < |m.older.tab.value| && m.older.tab.value[m.migratePos] != []
    ensures Valid(r) && Contents(r) == Contents(m) && r.migratePos == m.migratePos
    ensures r.newer.mask == m.newer.mask && r.newer.tab.Some? && r.older.tab.Some?
    ensures r.older.size + 1 == m.older.size && r.newer.size == m.newer.size + 1
  {
    var d := HDetach(m.older, Slot(m.migratePos, 0));
    var n := HInsert(m.newer, d.1);
    assert TabContents(n) + TabContents(d.0) == TabContents(m.newer) + TabContents(m.older);
    HMap(n, d.0, m.migratePos)
  }

  /** One pass of the migration loop's body: skips the bucket at
      `migratePos` if it is drained (`moved` false), and otherwise moves
      its head node into `newer` (`moved` true). */
  function MigrateStep(m: HMap): (r: (HMap, bool))
    requires Valid(m) && m.older.size > 0
    ensures Valid(r.0) && Contents(r.0) == Contents(m)
    ensures r.0.newer.mask == m.newer.mask && r.0.newer.tab.Some? && r.0.older.tab.Some?
    ensures r.1 ==> r.0.older.size + 1 == m.older.size && r.0.newer.size == m.newer.size + 1
    ensures r.1 ==> r.0.migratePos == m.migratePos
    ensures !r.1 ==> r.0.newer == m.newer && r.0.older == m.older
    ensures !r.1 ==> r.0.migratePos == m.migratePos + 1
  {
    MigratePosInRange(m);
    if m.older.tab.value[m.migratePos] == [] then
      (SkipBucket(m), false)
    else
      (MoveHead(m), true)
  }

  /** The migration loop: skips drained buckets of `older` and moves the
      head of the first non-empty one into `newer`, until `RehashingWork`
      nodes have moved or `older` is empty. */
  function MigrateLoop(m: HMap, nwork: nat): (r: HMap)
    requires Valid(m) && nwork <= RehashingWork
    ensures Valid(r) && Contents(r) == Contents(m)
    ensures r.newer.mask == m.newer.mask && r.newer.tab.Some? == m.newer.tab.Some?
    decreases RehashingWork - nwork, if m.older.tab.Some? then |m.older.tab.value| - m.migratePos else 0
  {
    if nwork < RehashingWork && m.older.size > 0 then
      var step := MigrateStep(m);
      MigrateLoop(step.0, if step.1 then nwork + 1 else nwork)
    else
      m
  }

  /** The loop moves exactly `k` nodes from `older` to `newer`, `k` being
      the smaller of the remaining work and the nodes in `older`. */
  lemma {:induction false} MigrateLoopMoves(m: HMap, nwork: nat)
    requires Valid(m) && nwork <= RehashingWork
    ensures var r := MigrateLoop(m, nwork);
      var k := Min(RehashingWork - nwork, m.older.size);
      r.older.size + k == m.older.size && r.newer.size == m.newer.size + k
    decreases RehashingWork - nwork, if m.older.tab.Some? then |m.older.tab.value| - m.migratePos else 0
  {
    if nwork < RehashingWork && m.older.size > 0 {
      var step := MigrateStep(m);
      MinStep(RehashingWork - nwork, m.older.size);
      MigrateLoopMoves(step.0, if step.1 then nwork + 1 else nwork);
    }
  }

  /** Moving one node uses up one unit of both the work and the supply. */
  lemma MinStep(w: nat, n: nat)
    requires w > 0 && n > 0
    ensures Min(w - 1, n - 1) + 1 == Min(w, n)
  {
  }

  /** One bounded migration step, releasing `older` once it is drained. */
  function HelpRehashing(m: HMap): (r: HMap)
    requires Valid(m)
    ensures Valid(r) && Contents(r) == Contents(m) && HmSize(r) == HmSize(m)
    ensures r.newer.mask == m.newer.mask && r.newer.tab.Some? == m.newer.tab.Some?
    ensures r.older.size == m.older.size - Min(RehashingWork, m.older.size)
    ensures r.newer.size == m.newer.size + Min(RehashingWork, m.older.size)
    ensures r.older.size == 0 ==> r.older == EmptyTab
  {
    var s := MigrateLoop(m, 0);
    MigrateLoopMoves(m, 0);
    if s.older.size == 0 && s.older.tab.Some? then
      s.(older := EmptyTab)
    else
      s
  }

  /** Starts a resize: `newer` becomes `older`, and a table of twice its
      capacity becomes `newer`. No resize may already be in flight. */
  function TriggerRehashing(m: HMap): (r: HMap)
    requires Valid(m) && m.older.tab.None?
    ensures Valid(r) && Contents(r) == Contents(m) && HmSize(r) == HmSize(m)
    ensures r.older == m.newer && r.migratePos == 0
    ensures r.newer.tab.Some? && |r.newer.tab.value| == 2 * (m.newer.mask + 1)
    ensures r.newer.size == 0
  {
    DoublePowerOfTwo(m.newer.mask + 1);
    HMap(HInit((m.newer.mask + 1) * 2), m.newer, 0)
  }

  // ---------------------------------------------------------------------
  // Public operations

  /** Looks `key` up after a migration step: the first match in `newer`'s
      chain if there is one, otherwise the first match in `older`'s. */
  function HmLookup(m: HMap, key: HNode, eq: (HNode, HNode) -> bool): (r: (HMap, Option<HNode>))
    requires Valid(m)
    ensures Valid(r.0) && Contents(r.0) == Contents(m) && HmSize(r.0) == HmSize(m)
    ensures r.1.Some? ==> r.1.value in Contents(m) && Matches(r.1.value, key, eq)
    ensures r.1.None? <==> NoMatch(Contents(m), key, eq)
  {
    var m1 := HelpRehashing(m);
    SearchBoth(m1, key, eq)
  }

  /** The search part of `hm_lookup`, on the map after its migration step:
      `newer` first, `older` only when `newer` holds no match. */
  function SearchBoth(m: HMap, key: HNode, eq: (HNode, HNode) -> bool): (r: (HMap, Option<HNode>))
    requires Valid(m)
    ensures r.0 == m
    ensures r.1.Some? ==> r.1.value in Contents(m) && Matches(r.1.value, key, eq)
    ensures r.1.None? <==> NoMatch(Contents(m), key, eq)
    ensures !NoMatch(TabContents(m.newer), key, eq) ==> r.1.Some? && FirstMatch(m.newer, key, eq, r.1.value)
    ensures NoMatch(TabContents(m.newer), key, eq) && r.1.Some? ==> FirstMatch(m.older, key, eq, r.1.value)
  {
    var s := HLookup(m.newer, key, eq);
    if s.Some? then
      FoundIsFirstMatch(m.newer, key, eq, s.value);
      (m, Some(At(m.newer, s.value)))
    else
      var s' := HLookup(m.older, key, eq);
      if s'.Some? then
        FoundIsFirstMatch(m.older, key, eq, s'.value);
        (m, Some(At(m.older, s'.value)))
      else
        (m, None)
  }

  /** `hm_lookup` migrates exactly as one help call does, then answers
      with the first match in `newer`'s chain, or failing that in
      `older`'s. */
  lemma LookupMigratesThenSearches(m: HMap, key: HNode, eq: (HNode, HNode) -> bool)
    requires Valid(m)
    ensures var r := HmLookup(m, key, eq);
      && r.0.older.size == m.older.size - Min(RehashingWork, m.older.size)
      && r.0.newer.size == m.newer.size + Min(RehashingWork, m.older.size)
      && (r.0.older.size == 0 ==> r.0.older == EmptyTab)
    ensures var r := HmLookup(m, key, eq);
      && (!NoMatch(TabContents(r.0.newer), key, eq) ==> r.1.Some? && FirstMatch(r.0.newer, key, eq, r.1.value))
      && (NoMatch(TabContents(r.0.newer), key, eq) && r.1.Some? ==> FirstMatch(r.0.older, key, eq, r.1.value))
  {
  }

  /** Allocates `newer` with the initial capacity if it is unallocated. */
  function AllocNewer(m: HMap): (r: HMap)
    requires Valid(m)
    ensures Valid(r) && Contents(r) == Contents(m) && r.older == m.older
    ensures r.migratePos == m.migratePos && r.newer.tab.Some? && r.newer.size == m.newer.size
    ensures r.newer.mask + 1 == if m.newer.tab.None? then InitialCapacity else m.newer.mask + 1
    ensures m.newer.tab.Some? ==> r == m
  {
    assert PowerOfTwoTest(InitialCapacity) by {
      assert BitAnd(3, 4) == 2 * BitAnd(1, 2);
      assert BitAnd(1, 2) == 2 * BitAnd(0, 1);
    }
    if m.newer.tab.None? then m.(newer := HInit(InitialCapacity)) else m
  }

  /** Pushes `x` into `newer`; `older` is left alone. */
  function InsertNewer(m: HMap, x: HNode): (r: HMap)
    requires Valid(m) && m.newer.tab.Some?
    ensures Valid(r) && Contents(r) == Contents(m) + multiset{x}
    ensures r.older == m.older && r.migratePos == m.migratePos
    ensures r.newer.tab.Some? && r.newer.mask == m.newer.mask && r.newer.size == m.newer.size + 1
  {
    m.(newer := HInsert(m.newer, x))
  }

  /** Inserts `x` into `newer` (allocating it on first use), starts a resize
      when the load factor is reached and none is in flight, then migrates:
      from the old table in flight, or from the just-retired `newer`. */
  function HmInsert(m: HMap, x: HNode): (r: HMap)
    requires Valid(m)
    ensures Valid(r) && Contents(r) == Contents(m) + multiset{x}
    ensures HmSize(r) == HmSize(m) + 1
    ensures var cap := if m.newer.tab.None? then InitialCapacity else m.newer.mask + 1;
      var grow := m.older.tab.None? && m.newer.size + 1 >= cap * MaxLoadFactor;
      r.newer.tab.Some? && r.newer.mask + 1 == (if grow then 2 * cap else cap)
  {
    HelpRehashing(GrowIfLoaded(InsertNewer(AllocNewer(m), x)))
  }

  /** `hm_insert` migrates last: from the old table in flight if there is
      one, from the just-retired `newer` if the insertion started a resize,
      and otherwise not at all. */
  lemma InsertThenMigrates(m: HMap, x: HNode)
    requires Valid(m)
    ensures var r := HmInsert(m, x);
      var cap := if m.newer.tab.None? then InitialCapacity else m.newer.mask + 1;
      var grow := m.older.tab.None? && m.newer.size + 1 >= cap * MaxLoadFactor;
      && (m.older.tab.Some? ==> r.older.size == m.older.size - Min(RehashingWork, m.older.size))
      && (grow ==> r.older.size == m.newer.size + 1 - Min(RehashingWork, m.newer.size + 1))
      && (!grow && m.older.tab.None? ==> r.older == EmptyTab)
      && (r.older.size == 0 ==> r.older == EmptyTab)
  {
    var cap := if m.newer.tab.None? then InitialCapacity else m.newer.mask + 1;
    var grow := m.older.tab.None? && m.newer.size + 1 >= cap * MaxLoadFactor;
    var a := InsertNewer(AllocNewer(m), x);
    assert a.older == m.older && a.newer.size == m.newer.size + 1 && a.newer.mask + 1 == cap;
    var g := GrowIfLoaded(a);
    assert grow ==> g.older == a.newer;
    assert !grow ==> g.older == m.older;
    assert HelpRehashing(g) == HmInsert(m, x);
  }

  /** Starts a resize when `newer` has reached the load factor and no
      resize is in flight; otherwise leaves the map alone. */
  function GrowIfLoaded(m: HMap): (r: HMap)
    requires Valid(m) && m.newer.tab.Some?
    ensures Valid(r) && Contents(r) == Contents(m) && HmSize(r) == HmSize(m)
    ensures var grow := m.older.tab.None? && m.newer.size >= (m.newer.mask + 1) * MaxLoadFactor;
      && r.newer.tab.Some?
      && r.newer.mask + 1 == (if grow then 2 * (m.newer.mask + 1) else m.newer.mask + 1)
      && (grow ==> r.older == m.newer)
      && (!grow ==> r == m)
  {
    if m.older.tab.None? && m.newer.size >= (m.newer.mask + 1) * MaxLoadFactor then
      TriggerRehashing(m)
    else
      m
  }

  /** Removing an element of one summand removes it from the sum. */
  lemma RemoveFromSum(a: multiset<HNode>, b: multiset<HNode>, x: HNode)
    requires x in a
    ensures (a - multiset{x}) + b == (a + b) - multiset{x}
    ensures b + (a - multiset{x}) == (b + a) - multiset{x}
  {
  }

  /** Detaches the node at slot `s` of `newer`. */
  function DetachNewer(m: HMap, s: Slot): (r: (HMap, HNode))
    requires Valid(m) && IsSlot(m.newer, s)
    ensures Valid(r.0) && r.1 == At(m.newer, s) && r.1 in Contents(m)
    ensures Contents(r.0) == Contents(m) - multiset{r.1} && HmSize(r.0) + 1 == HmSize(m)
    ensures r.0.older == m.older && r.0.migratePos == m.migratePos
    ensures r.0.newer.size + 1 == m.newer.size
  {
    var d := HDetach(m.newer, s);
    RemoveFromSum(TabContents(m.newer), TabContents(m.older), d.1);
    (m.(newer := d.0), d.1)
  }

  /** Detaches the node at slot `s` of `older`. */
  function DetachOlder(m: HMap, s: Slot): (r: (HMap, HNode))
    requires Valid(m) && IsSlot(m.older, s)
    ensures Valid(r.0) && r.1 == At(m.older, s) && r.1 in Contents(m)
    ensures Contents(r.0) == Contents(m) - multiset{r.1} && HmSize(r.0) + 1 == HmSize(m)
    ensures r.0.newer == m.newer && r.0.migratePos == m.migratePos
    ensures r.0.older.size + 1 == m.older.size
  {
    var d := HDetach(m.older, s);
    RemoveFromSum(TabContents(m.older), TabContents(m.newer), d.1);
    (m.(older := d.0), d.1)
  }

  /** Detaches and returns the first node matching `key` after a migration
      step: the first match in `newer`'s chain if there is one, otherwise
      the first match in `older`'s. */
  function HmDelete(m: HMap, key: HNode, eq: (HNode, HNode) -> bool): (r: (HMap, Option<HNode>))
    requires Valid(m)
    ensures Valid(r.0)
    ensures r.1.None? ==> Contents(r.0) == Contents(m) && HmSize(r.0) == HmSize(m)
    ensures r.1.None? ==> NoMatch(Contents(m), key, eq)
    ensures r.1.Some? ==> r.1.value in Contents(m) && Matches(r.1.value, key, eq)
    ensures r.1.Some? ==> Contents(r.0) == Contents(m) - multiset{r.1.value}
    ensures r.1.Some? ==> HmSize(r.0) + 1 == HmSize(m)
  {
    DetachFirst(HelpRehashing(m), key, eq)
  }

  /** `hm_delete` migrates as one help call does (the detach may take one
      more node out of `older`), then removes the first match in `newer`'s
      chain, or failing that in `older`'s. */
  lemma DeleteMigratesThenSearches(m: HMap, key: HNode, eq: (HNode, HNode) -> bool)
    requires Valid(m)
    ensures var r := HmDelete(m, key, eq);
      var k := Min(RehashingWork, m.older.size);
      && r.0.older.size <= m.older.size - k <= r.0.older.size + 1
      && (m.older.size <= RehashingWork ==> r.0.older == EmptyTab)
    ensures var r := HmDelete(m, key, eq);
      var h := HelpRehashing(m);
      && (!NoMatch(TabContents(h.newer), key, eq) ==> r.1.Some? && FirstMatch(h.newer, key, eq, r.1.value))
      && (NoMatch(TabContents(h.newer), key, eq) && r.1.Some? ==> FirstMatch(h.older, key, eq, r.1.value))
  {
    var h := HelpRehashing(m);
    DetachFirstOrder(h, key, eq);
  }

  /** The search-and-detach part of `hm_delete`, on the map after its
      migration step: `newer` is searched first and `older` only when
      `newer` holds no match; only the table the node came from changes. */
  function DetachFirst(m: HMap, key: HNode, eq: (HNode, HNode) -> bool): (r: (HMap, Option<HNode>))
    requires Valid(m)
    ensures Valid(r.0)
    ensures r.1.None? ==> r.0 == m
    ensures r.1.None? ==> NoMatch(Contents(m), key, eq)
    ensures r.1.Some? ==> r.1.value in Contents(m) && Matches(r.1.value, key, eq)
    ensures r.1.Some? ==> Contents(r.0) == Contents(m) - multiset{r.1.value}
    ensures r.1.Some? ==> HmSize(r.0) + 1 == HmSize(m)
  {
    var s := HLookup(m.newer, key, eq);
    if s.Some? then
      var d := DetachNewer(m, s.value);
      (d.0, Some(d.1))
    else
      var s' := HLookup(m.older, key, eq);
      if s'.Some? then
        var d := DetachOlder(m, s'.value);
        (d.0, Some(d.1))
      else
        (m, None)
  }

  /** Which node `DetachFirst` removes, and from which table: the first
      match of `newer`'s chain if any (leaving `older` alone), otherwise
      the first match of `older`'s (leaving `newer` alone). */
  lemma DetachFirstOrder(m: HMap, key: HNode, eq: (HNode, HNode) -> bool)
    requires Valid(m)
    ensures var r := DetachFirst(m, key, eq);
      && r.0.migratePos == m.migratePos
      && (!NoMatch(TabContents(m.newer), key, eq) ==>
            && r.1.Some? && FirstMatch(m.newer, key, eq, r.1.value)
            && r.0.older == m.older && r.0.newer.size + 1 == m.newer.size)
      && (NoMatch(TabContents(m.newer), key, eq) ==> r.0.newer == m.newer)
      && (NoMatch(TabContents(m.newer), key, eq) && r.1.Some? ==>
            FirstMatch(m.older, key, eq, r.1.value) && r.0.older.size + 1 == m.older.size)
  {
    var s := HLookup(m.newer, key, eq);
    if s.Some? {
      FoundIsFirstMatch(m.newer, key, eq, s.value);
    } else {
      var s' := HLookup(m.older, key, eq);
      if s'.Some? {
        FoundIsFirstMatch(m.older, key, eq, s'.value);
      }
    }
  }

  /** Releases both tables: back to the zero-initialised map. */
  function HmClear(m: HMap): (r: HMap)
    ensures Valid(r) && Contents(r) == multiset{} && HmSize(r) == 0
    ensures r.newer.tab.None? && r.older.tab.None? && r.migratePos == 0
  {
    EmptyMap
  }
}
